=== FILE: README.md ===
# shrimp profile switching, modelled in Dafny

shrimp groups configuration files into named profiles and swaps which
profile's files are present at their real paths. A managed file `f` of
profile `n` is **live** when it exists at `f` and **parked** when it exists at
`f + "." + n + ".disabled"`. This project models two parts of the program:

- **The profile table** (`config.go`): the configuration `{Active, Profiles}`
  and the operations that add and remove profiles, set the active profile, and
  add or remove files of the active profile, plus the rule that decides which
  file the configuration is saved to and read from. The source keeps the
  configuration in a global variable, reloads it from TOML at the start of each
  operation and saves it at the end. Here every operation takes the
  configuration it would have read and returns the one it would have saved, or
  the error it returns first (`ShrimpConfig`, `ConfigPath`).
- **The file-swap engine** (`profiles.go`): `ActivateProfile` and
  `DeactivateAll`, as methods over a filesystem object (`FileSystem.Fs`) whose
  set of existing paths they change in place with rename and remove. `os.Stat`
  is a membership test. Errors from `os.Rename` and `os.RemoveAll` come from a
  fixed set of faulty paths, so they are an input of the model and not a choice
  it makes. Each method is proved equal to a specification function over `Run`
  states (existing paths, warnings so far, the error that stopped the run). The
  properties are lemmas about those functions (`ShrimpProfiles`,
  `ShrimpProfileProperties`).

Go leaves the order of `for n, p := range c.Profiles` unspecified, so
`DeactivateAll` takes the visiting order as a parameter: any sequence that
lists every profile name once. The lemmas hold for every such order. The
inner loop of `DeactivateAll` (over one profile's files) is written as its
own method, `ParkProfileFiles`. The body of each per-file loop is a method of
its own (`ActivateFile`, `ParkFile`), proved equal to one step of the
specification function. `continue` after a warning becomes a normal return,
and `return err` becomes an error result that ends the loop. The clock (`time.Now()`) is the parameter
`now`. The user's home directory is the parameter `home`.

Three behaviours of the code are easy to mistake for something else:

- **Shared files are parked.** `DeactivateAll` has no shared-file check. A
  live file of an inactive profile is parked even when the active profile
  lists it too. `DeactivateParksInactiveFile` states this. It is proved for any
  configuration and order, as long as nothing else in the run touches the file
  or its parked path. `SharedFileIsParked` adds what follows when
  the active profile has no parked copy `g.<active>.disabled` of the shared
  file `g`, and no inactive profile lists that path or parks a file onto it:
  the activation after it reports that parked copy as missing. When the
  active profile does keep its own parked copy, as it normally does, the
  next activation brings it back and succeeds.
  Warnings and dry runs behave as usual. Without force, a live file whose
  parked path already exists is skipped with a warning, and a dry run parks
  nothing.
- **Activating twice fails.** Suppose the active profile lists at least one
  file, and no listed file is another listed file's parked path. Then a second
  activation right after a successful one finds the first parked file gone and
  returns an error (`ActivateTwiceReportsMissing`). With an empty active
  profile, the repeated call succeeds and changes nothing.
- **Which profile is activated.** `ActivateProfile(name, …)` checks that `name`
  exists. It then moves the files of `c.Active`, parked under `c.Active`'s
  name (`ActivateUsesActiveProfile`). The source comment says to call it only
  after setting `c.Active`. `ActivateAfterSetActive` states what the call does
  when it is used that way.

## Model

| member | source | states |
|---|---|---|
| `ShrimpConfig.AddProfile` | config.go:117-137 | An existing name is an error. Otherwise the table gains exactly the new key, with no files, and every other profile is unchanged. In an empty table the new profile becomes active and is stamped with the current time. Otherwise `Active` is unchanged and the stamp is the zero time. |
| `ShrimpConfig.RemoveProfile` | config.go:139-151 | An unknown name is an error. Otherwise exactly that key is deleted. `Active` becomes "" when the removed profile was active and is otherwise unchanged. |
| `ShrimpConfig.SetActiveProfile` | config.go:153-167 | An unknown name is an error. Otherwise `Active` is the name. That profile keeps its files and gets the new timestamp. The other profiles and the key set are unchanged. |
| `ShrimpConfig.WithActiveFiles` | config.go:187-188 | Writing back the active profile with a new list: `Active` is kept. The active name becomes a key if it was not one. The active profile gets exactly the new list and keeps its timestamp. Every other profile is unchanged. (The same write-back is at config.go:218-219.) |
| `ShrimpConfig.AddFileToActiveProfile` | config.go:169-193 | A path that does not exist, or that the active profile already lists, is an error (in that order). Otherwise the path is appended at the end of the active profile's list, which stays duplicate-free. Nothing else changes, except that an active name with no profile gets one inserted. |
| `ShrimpConfig.Without` | config.go:205-212 | Filtering never lengthens the list. It keeps the length exactly when the path is not listed. |
| `ShrimpConfig.WithoutCounts` | config.go:206-212 | Filtering removes every occurrence of the path and keeps every other entry as many times as it occurred. |
| `ShrimpConfig.WithoutMembers` | config.go:206-212 | After filtering, the path is absent and every other path is present exactly when it was before. |
| `ShrimpConfig.WithoutDistributes` | config.go:206-212 | Filtering works entry by entry, so the kept entries keep their original order. |
| `ShrimpConfig.WithoutAbsent` | config.go:206-212 | Filtering out a path that is not listed returns the list unchanged. |
| `ShrimpConfig.WithoutKeepsNoDuplicates` | config.go:206-212 | Filtering a duplicate-free list gives a duplicate-free list. |
| `ShrimpConfig.FilterOut` | config.go:203-216 | The loop's `removed` is true exactly when the path was listed, and `filtered` is the filtered list. |
| `ShrimpConfig.FileRemoved` | config.go:195-224 | A path that the active profile does not list is an error. Otherwise the active profile's list is the old list with the path filtered out. Its timestamp, the key set, `Active` and the other profiles are unchanged. |
| `ShrimpConfig.RemoveFileFromActiveProfile` | config.go:195-224 | The method's result is the configuration or error described by `FileRemoved`. |
| `ShrimpConfig.AddProfileKeepsWellFormed` | config.go:117-137 | Adding a profile keeps `Active` either "" or the name of a profile, and keeps every file list duplicate-free. |
| `ShrimpConfig.RemoveProfileKeepsWellFormed` | config.go:139-151 | Removing a profile keeps that invariant. |
| `ShrimpConfig.SetActiveProfileKeepsWellFormed` | config.go:153-167 | Setting the active profile keeps that invariant. |
| `ShrimpConfig.AddFileKeepsWellFormed` | config.go:181-188 | Adding a file keeps that invariant. |
| `ShrimpConfig.RemoveFileKeepsWellFormed` | config.go:203-219 | Removing a file keeps that invariant. |
| `ShrimpConfig.AddThenRemoveProfile` | config.go:117-151 | On a well-formed table, removing a profile that was just added gives back the original configuration. |
| `ShrimpConfig.AddThenRemoveFile` | config.go:169-224 | Removing a file that was just added to an existing active profile gives back the original configuration. |
| `ShrimpConfig.RevertActiveProfile` | main.go:69-97 | After a failed switch, setting the previous active name again restores `Active` and every file list. The revert is an error exactly when the previous active name is not a profile, such as "". |
| `ConfigPath.TrimTrailingSlashes` | config.go:83-84 | The path cut back to a prefix that does not end in "/", where everything cut off was "/". |
| `ConfigPath.LastElement` | config.go:83-84 | A slash-free suffix of the path that is either the whole path or preceded by "/". |
| `ConfigPath.Base` | config.go:83-84 | `filepath.Base`: "." for the empty path and "/" for a path of slashes only. Otherwise, once trailing slashes are cut, the slash-free text after the last "/" (or the whole path if it has none). |
| `ConfigPath.JoinPath` | config.go:83-84 | `filepath.Join(dir, name)` (without clean-up) is `dir`, then one "/" exactly when `dir` is non-empty and does not already end in "/", then `name`. |
| `ConfigPath.DefaultConfigPath` | config.go:31-37 | The default configuration file is `home + "/.config/shrimp/shrimp.toml"`, or `home + ".config/shrimp/shrimp.toml"` when the home path is empty or ends in "/". So the home path is a strict prefix and the last element is `shrimp.toml`. |
| `ConfigPath.DefaultConfigPathSpelledOut` | config.go:36 | The three joins of the default path give that one string. |
| `ConfigPath.BaseOfJoin` | config.go:83-85 | Appending `shrimp.toml` to a directory gives a path whose last element is `shrimp.toml`. |
| `ConfigPath.ResolveConfigPath` | config.go:80-86 | No path means the default file under the home directory. A path whose last element has no "." becomes the path, a "/" unless it already ends in one, and `shrimp.toml`. A path whose last element has a "." is used as it is. The result always names a file whose last element has a ".". |
| `ConfigPath.ResolveConfigPathIdempotent` | config.go:99-105 | ReadConfig and SaveConfig apply the same rule. Applying it to a path it has already produced changes nothing. |
| `FileSystem.Renamed` | profiles.go:42 | After a rename the destination exists, the source is gone when it differs from the destination, and every other path is unchanged. |
| `FileSystem.Fs.Rename` | profiles.go:41-46 | `os.Rename` succeeds exactly when the source exists and neither path is faulty. On success the paths are `Renamed`; on failure nothing changes. (The same call is at profiles.go:86-91.) |
| `FileSystem.Fs.RemoveAll` | profiles.go:34-38 | `os.RemoveAll` fails exactly when the path is faulty; removing a missing path is not an error. On success the path no longer exists and nothing else changes; on failure nothing changes. |
| `ShrimpProfiles.Parked` | profiles.go:21 | The parked path is the file path, a ".", the profile name and ".disabled", in that order and nothing else. |
| `ShrimpProfiles.Finish` | profiles.go:49-53 | A run with warnings and no other error becomes the error `WarningsEmitted` carrying the warning count, unless it is a dry run. An earlier error is returned as it is. Paths and warning count are kept. |
| `ShrimpProfiles.ActivateStep` | profiles.go:21-46 | One activation step adds at most one warning. A failing step adds no warning. A step that does not fail had the parked file present. The full decision table is `ActivateStepCases` and `ActivateStepOutcome`. |
| `ShrimpProfiles.ActivateStepCases` | profiles.go:20-47 | Per file: a missing parked path is an error. An occupied live path without force counts a warning and changes nothing. A dry run changes nothing. A real step without warning or error leaves the file live and no longer parked. Only the file and its parked path can change. |
| `ShrimpProfiles.ActivateStepOutcome` | profiles.go:23-46 | A step fails exactly when the parked path is missing, or when it is a real run that does not skip the file and either the file or its parked path is faulty. It warns exactly when the parked copy exists and the live path is occupied without force. A forced, real step over an occupied live path with nothing faulty succeeds, and the parked copy replaces the live one. A failed rename leaves the paths with the live file removed (the forced removal is not undone); every other failure changes no path. |
| `ShrimpProfiles.ActivateFile` | profiles.go:21-46 | The loop body leaves the filesystem, and returns the warning count and error, that `ActivateStep` gives. |
| `ShrimpProfiles.Activating` | profiles.go:20-47 | Warnings only grow. A failed run is never continued. A dry run changes no path, and its only possible error is a missing parked file. |
| `ShrimpProfiles.ActivateResult` | profiles.go:12-56 | An unknown name is an error and leaves the filesystem unchanged. A dry run changes nothing and fails only on an unknown name or a missing parked file. A real run that succeeds had no warnings. |
| `ShrimpProfiles.ActivateProfile` | profiles.go:12-56 | The method leaves the filesystem, and returns the error, that `ActivateResult` gives for the same configuration and starting paths. |
| `ShrimpProfiles.ParkStep` | profiles.go:70-91 | One parking step adds at most one warning. A failing step leaves the paths and the warning count unchanged, and only a live file can fail. A file that is not live leaves the paths unchanged. The full decision table is `ParkStepCases`. |
| `ShrimpProfiles.ParkStepCases` | profiles.go:67-92 | Per file: a file that is not live is never renamed. It counts a warning when it is not parked either. A live file with an existing parked path and no force counts a warning and changes nothing. Otherwise the file is renamed to its parked path, unless the run is dry. A failed rename is the step's error and changes nothing. |
| `ShrimpProfiles.ParkFile` | profiles.go:70-91 | The loop body leaves the filesystem, and returns the warning count and error, that `ParkStep` gives. |
| `ShrimpProfiles.Parking` | profiles.go:67-92 | Warnings only grow. A failed run is never continued. A dry run changes no path and never fails. |
| `ShrimpProfiles.DeactivatingProfiles` | profiles.go:62-93 | Over the profiles: warnings only grow, a failed run is never continued, and a dry run changes no path and never fails. |
| `ShrimpProfiles.DeactivateResult` | profiles.go:58-102 | A dry run changes nothing and returns no error. A real run that succeeds had no warnings. |
| `ShrimpProfiles.ParkProfileFiles` | profiles.go:67-92 | The inner loop leaves the filesystem, and returns the warning count and error, that `Parking` gives. |
| `ShrimpProfiles.DeactivateAll` | profiles.go:58-102 | For any order of visiting the profiles, the method leaves the filesystem, and returns the error, that `DeactivateResult` gives. |
| `ShrimpProfileProperties.ParkedNamesDistinct` | profiles.go:21 | A parked path never equals its live path. For one profile it determines the file, and for one file it determines the profile. |
| `ShrimpProfileProperties.ParkedSetMembers` | profiles.go:70 | A file's parked path is among a list's parked paths exactly when the file is in the list. |
| `ShrimpProfileProperties.ActivatingAppend` | profiles.go:20-47 | Activating a list is activating a prefix of it and then the rest from where the prefix left off. Nothing after a failure is processed. |
| `ShrimpProfileProperties.ActivateStopsAtMissingParked` | profiles.go:23-25 | At the first file whose parked path is missing, the run stops with that error. Earlier files stay as processed and later files are not touched. |
| `ShrimpProfileProperties.ActivateStopsAtRenameError` | profiles.go:34-45 | A rename error ends a real activation run with that error. A live file removed to make room stays removed, earlier files stay live, and later files are unchanged. |
| `ShrimpProfileProperties.ActivateSkipsOccupied` | profiles.go:27-32 | Without force, a file whose live path exists is skipped with one warning. Its live and parked paths are unchanged. |
| `ShrimpProfileProperties.ActivateOccupiedFails` | profiles.go:49-53 | Such a skip makes a real activation return an error. |
| `ShrimpProfileProperties.ActivatingFrame` | profiles.go:20-47 | Activation changes no path other than the processed files and their parked paths. |
| `ShrimpProfileProperties.ActivateProfileFrame` | profiles.go:12-56 | ActivateProfile changes no path other than the active profile's files and their parked paths. |
| `ShrimpProfileProperties.ActivatingState` | profiles.go:34-46 | When no file is also another file's parked path, a real run without error or warning ends with every processed file live and none of them parked. Every other path is unchanged. |
| `ShrimpProfileProperties.ActivateProfileSucceeds` | profiles.go:12-56 | A real ActivateProfile that succeeds was given an existing name. It ends with exactly the old paths, minus the active profile's parked paths, plus its live paths. |
| `ShrimpProfileProperties.ActivateTwiceReportsMissing` | profiles.go:23-25 | Suppose the active profile lists at least one file, and none of its files is another's parked path. Right after a successful activation, a second one fails on the first file's missing parked path. |
| `ShrimpProfileProperties.ActivateUsesActiveProfile` | profiles.go:16-21 | Any two existing names give the same outcome. The name is only checked. |
| `ShrimpProfileProperties.ActivateAfterSetActive` | profiles.go:11-21 | After SetActiveProfile(name), ActivateProfile(name) moves the files of `name` back from their parked paths under `name`. |
| `ShrimpProfileProperties.ParkingAppend` | profiles.go:67-92 | Parking a list is parking a prefix and then the rest. Nothing after a failed rename is processed. |
| `ShrimpProfileProperties.DeactivatingAppend` | profiles.go:62-93 | The same holds over the profiles: after a failure no later profile is processed. |
| `ShrimpProfileProperties.DeactivateStopsAtRenameError` | profiles.go:86-91 | A rename error ends the run with that error. Earlier files stay parked. The file and all later files are unchanged. |
| `ShrimpProfileProperties.ParkingFrame` | profiles.go:67-92 | Parking changes no path other than the processed files and their parked paths. |
| `ShrimpProfileProperties.DeactivatingFrame` | profiles.go:62-93 | Only the files of the visited profiles other than the active one, and their parked paths, can change. The active profile's list is never processed. |
| `ShrimpProfileProperties.DeactivateIgnoresActiveProfile` | profiles.go:63-65 | Replacing the active profile's entry by any profile does not change the outcome. |
| `ShrimpProfileProperties.ParkingState` | profiles.go:80-91 | When no file is also another file's parked path, a real run without error or warning ends with every processed file parked and none of them live. Every other path is unchanged. |
| `ShrimpProfileProperties.DeactivatingState` | profiles.go:62-93 | The same holds over all profiles other than the active one. |
| `ShrimpProfileProperties.DeactivateAllSucceeds` | profiles.go:58-102 | A real DeactivateAll that succeeds ends with exactly the old paths, minus the inactive profiles' live paths, plus their parked paths. |
| `ShrimpProfileProperties.ParkingParksFile` | profiles.go:80-91 | Take a live file of the profile being parked, with no parked copy and no aliasing entry in the list. A parking run that does not fail leaves it parked and not live. |
| `ShrimpProfileProperties.DeactivateParksInactiveFile` | profiles.go:58-102 | Take any configuration and iteration order, and a live, unparked file of an inactive profile that no other inactive profile touches. A successful DeactivateAll parks it under that profile's name, whether or not the active profile lists it. |
| `ShrimpProfileProperties.ActivatingReportsMissing` | profiles.go:21-25 | A listed file whose parked path is absent, and is not itself a listed file, makes the activation loop fail. |
| `ShrimpProfileProperties.ActivateFailsWithoutParkedCopy` | profiles.go:12-56 | ActivateProfile fails, dry or not, when a file of the active profile has no parked copy and the active profile does not list that parked path. |
| `ShrimpProfileProperties.SharedFileIsParked` | profiles.go:12-102 | Take a file `g` shared by the active profile and an inactive one, under the conditions of `DeactivateParksInactiveFile`. Suppose the active profile has no parked copy `g.<active>.disabled`, and no inactive profile lists that path or parks a file onto it. If DeactivateAll succeeds, `g` ends parked under the inactive profile's name, and the next ActivateProfile fails. |
| `ShrimpProfileProperties.ParkingFromLive` | profiles.go:67-92 | When all the files are live and none is parked, parking succeeds exactly when no rename fails. It then swaps each live path for its parked path. |
| `ShrimpProfileProperties.ActivatingFromParked` | profiles.go:20-47 | When all the files are parked and none is live, activating succeeds exactly when no rename fails. It then swaps each parked path for its live path. |
| `ShrimpProfileProperties.ParkThenActivate` | profiles.go:20-92 | Take distinct, live, unparked files, and no faulty path among them. Parking them and then activating them succeeds and gives back the original filesystem. |
| `ShrimpProfileProperties.ActivateThenPark` | profiles.go:20-92 | Take distinct, parked, non-live files, and no faulty path among them. Activating them and then parking them succeeds and gives back the original filesystem. |

## Left out

- TOML reading and writing, `getConfigDir`/`MkdirAll` and `os.UserHomeDir` are library formats and I/O. Each operation's result is the configuration that would be saved. A failing `SaveConfig` after the in-memory change is not modelled. Nor are ReadConfig errors, which the source ignores.
- The file the configuration is read from: `AddFileToActiveProfile` and `RemoveFileFromActiveProfile` call `ReadConfig` with the managed file's path, not `pathCFG`. The model receives the configuration explicitly, so this has no counterpart.
- `ExpandPath` (utils.go) depends on the environment and the working directory. Paths are taken as already expanded, and its error return is not modelled.
- A Go map that was never created: adding a file when no configuration was loaded writes into a nil map and panics. The model has only empty maps.
- `filepath.Join` is modelled without `filepath.Clean`, which removes "." and ".." elements and repeated separators from the joined path.
- Directory trees: `os.RemoveAll` removes a whole tree and `os.Rename` moves one. Here every path is a single entry, so a managed directory's contents are not tracked.
- `os.Stat` errors other than "does not exist" (for example, permission denied): `os.Stat` is membership in the set of existing paths, so the model has no third outcome for a path that cannot be inspected. The source counts such a path as present at profiles.go:23, profiles.go:72-73 and config.go:177, where only "does not exist" means absent. It counts it as absent at profiles.go:27 and profiles.go:80, where only success means present.
- Warning texts, error strings and `slog` output. Only the warning count and the kind of error are kept.
- main.go, hooks.go: command-line parsing, printing, and running pre/post hooks. `SwitchToProfile`, which `ActivateCmd.Run` calls, is not part of this model. Only the revert of the active name is stated (`RevertActiveProfile`).
- `ShrimpProfileProperties.ActivateProfileSucceeds`: it states the final filesystem only when no file of the active profile is also the parked path of one of its files. Without that condition, a later rename can overwrite an earlier one.
- `ShrimpProfileProperties.DeactivateAllSucceeds`: it states the final filesystem only when no file of an inactive profile is also the parked path of such a file, for the same reason.

=== FILE: config.dfy ===
/**
 * The profile table of shrimp (config.go): a configuration holds the name of
 * the active profile and a map from profile names to profiles, each profile a
 * time of last activation and an ordered list of managed file paths.
 *
 * The source keeps the configuration in a package-level variable, reloads it
 * from a TOML file at the start of every operation and writes it back at the
 * end. Here each operation takes the configuration it would have read and
 * returns the configuration it would have written (or the error it returns
 * before writing). The clock (`time.Now()`) is the parameter `now`, and the
 * set of paths `os.Stat` finds is the parameter `existing`.
 */
module ShrimpConfig {
  import opened Wrappers
  import opened FileSystem

  /** Go's `time.Time`: the zero value, or an instant read from the clock. */
  datatype Timestamp = ZeroTime | At(instant: int)

  datatype Profile = Profile(lastActive: Timestamp, files: seq<Path>)

  /** `Active` is "" when no profile is active. */
  datatype Config = Config(active: string, profiles: map<string, Profile>)

  datatype ConfigError =
    | ProfileExists(name: string)
    | ProfileMissing(name: string)
    | PathMissing(path: Path)
    | AlreadyManaged(path: Path, profile: string)
    | NotInProfile(path: Path)

  /** The zero `Profile` value. */
  const NewProfile := Profile(ZeroTime, [])

  /** `c.Profiles[n]`: a Go map read yields the zero profile for a missing key. */
  function ProfileNamed(cfg: Config, n: string): Profile {
    if n in cfg.profiles then cfg.profiles[n] else NewProfile
  }

  /** `c.Profiles[c.Active]`. */
  function ActiveProfile(cfg: Config): Profile {
    ProfileNamed(cfg, cfg.active)
  }

  predicate NoDuplicates(s: seq<Path>) {
    forall i, j :: 0 <= i < j < |s| ==> s[i] != s[j]
  }

  /** What the table operations keep: the active name is "" or a profile, and no
      profile lists a path twice. */
  predicate WellFormed(cfg: Config) {
    && (cfg.active == "" || cfg.active in cfg.profiles)
    && forall n :: n in cfg.profiles ==> NoDuplicates(cfg.profiles[n].files)
  }

  /** AddProfile: a new, empty profile; the first profile of an empty table
      becomes active and is stamped with the current time. */
  function AddProfile(cfg: Config, name: string, now: int): (r: Result<Config, ConfigError>)
    ensures r.Err? <==> name in cfg.profiles
    ensures r.Err? ==> r.error == ProfileExists(name)
    ensures r.Ok? ==>
      && r.value.profiles.Keys == cfg.profiles.Keys + {name}
      && r.value.profiles[name].files == []
      && (forall n :: n in cfg.profiles ==> r.value.profiles[n] == cfg.profiles[n])
    ensures r.Ok? && |cfg.profiles| == 0 ==>
      r.value.active == name && r.value.profiles[name].lastActive == At(now)
    ensures r.Ok? && |cfg.profiles| != 0 ==>
      r.value.active == cfg.active && r.value.profiles[name].lastActive == ZeroTime
  {
    if name in cfg.profiles then Err(ProfileExists(name))
    else if |cfg.profiles| == 0 then Ok(Config(name, map[name := Profile(At(now), [])]))
    else Ok(cfg.(profiles := cfg.profiles[name := NewProfile]))
  }

  /** RemoveProfile: deletes exactly one key; a removed active profile leaves no
      profile active. */
  function RemoveProfile(cfg: Config, name: string): (r: Result<Config, ConfigError>)
    ensures r.Err? <==> name !in cfg.profiles
    ensures r.Err? ==> r.error == ProfileMissing(name)
    ensures r.Ok? ==> name !in r.value.profiles && r.value.profiles == cfg.profiles - {name}
    ensures r.Ok? ==> (r.value.active == cfg.active <==> cfg.active != name || name == "")
    ensures r.Ok? && cfg.active == name ==> r.value.active == ""
  {
    if name !in cfg.profiles then Err(ProfileMissing(name))
    else Ok(Config(if cfg.active == name then "" else cfg.active, cfg.profiles - {name}))
  }

  /** SetActiveProfile: makes a known profile active and stamps it; nothing else
      changes. */
  function SetActiveProfile(cfg: Config, name: string, now: int): (r: Result<Config, ConfigError>)
    ensures r.Err? <==> name !in cfg.profiles
    ensures r.Err? ==> r.error == ProfileMissing(name)
    ensures r.Ok? ==>
      && r.value.active == name
      && r.value.profiles.Keys == cfg.profiles.Keys
      && r.value.profiles[name] == Profile(At(now), cfg.profiles[name].files)
      && (forall n :: n in cfg.profiles && n != name ==> r.value.profiles[n] == cfg.profiles[n])
  {
    if name !in cfg.profiles then Err(ProfileMissing(name))
    else Ok(Config(name, cfg.profiles[name := cfg.profiles[name].(lastActive := At(now))]))
  }

  /** Writes back the active profile with a new file list: `c.Profiles[c.Active] = profile`,
      which inserts the key when the active name is not a profile. */
  function WithActiveFiles(cfg: Config, files: seq<Path>): (r: Config)
    ensures r.active == cfg.active
    ensures r.profiles.Keys == cfg.profiles.Keys + {cfg.active}
    ensures ActiveProfile(r) == Profile(ActiveProfile(cfg).lastActive, files)
    ensures forall n :: n in cfg.profiles && n != cfg.active ==> r.profiles[n] == cfg.profiles[n]
  {
    cfg.(profiles := cfg.profiles[cfg.active := ActiveProfile(cfg).(files := files)])
  }

  /** AddFileToActiveProfile: the path must exist on disk and not be managed by
      the active profile yet; it is appended at the end of the list. */
  function AddFileToActiveProfile(cfg: Config, path: Path, existing: set<Path>): (r: Result<Config, ConfigError>)
    ensures r.Err? <==> path !in existing || path in ActiveProfile(cfg).files
    ensures r.Err? && path !in existing ==> r.error == PathMissing(path)
    ensures r.Err? && path in existing ==> r.error == AlreadyManaged(path, cfg.active)
    ensures r.Ok? ==>
      && r.value.active == cfg.active
      && r.value.profiles.Keys == cfg.profiles.Keys + {cfg.active}
      && ActiveProfile(r.value).files == ActiveProfile(cfg).files + [path]
      && ActiveProfile(r.value).lastActive == ActiveProfile(cfg).lastActive
      && (forall n :: n in cfg.profiles && n != cfg.active ==> r.value.profiles[n] == cfg.profiles[n])
    ensures r.Ok? && NoDuplicates(ActiveProfile(cfg).files) ==> NoDuplicates(ActiveProfile(r.value).files)
  {
    if path !in existing then Err(PathMissing(path))
    else if path in ActiveProfile(cfg).files then Err(AlreadyManaged(path, cfg.active))
    else Ok(WithActiveFiles(cfg, ActiveProfile(cfg).files + [path]))
  }

  /** The list with every occurrence of `x` dropped and the rest in order. */
  function Without(s: seq<Path>, x: Path): (r: seq<Path>)
    ensures |r| <= |s|
    ensures |r| == |s| <==> x !in s
  {
    if s == [] then []
    else Without(s[..|s| - 1], x) + (if s[|s| - 1] == x then [] else [s[|s| - 1]])
  }

  /** Filtering sets the count of `x` to zero and keeps every other count. */
  lemma {:induction false} WithoutCounts(s: seq<Path>, x: Path)
    ensures multiset(Without(s, x)) == multiset(s)[x := 0]
  {
    if s != [] {
      var init, last := s[..|s| - 1], s[|s| - 1];
      assert s == init + [last];
      WithoutCounts(init, x);
    }
  }

  /** Membership after filtering: `x` is gone and every other path stays. */
  lemma WithoutMembers(s: seq<Path>, x: Path)
    ensures x !in Without(s, x)
    ensures forall y :: y != x ==> (y in Without(s, x) <==> y in s)
  {
    var r := Without(s, x);
    WithoutCounts(s, x);
    assert multiset(r)[x] == 0;
    forall y | y != x
      ensures y in r <==> y in s
    {
      assert multiset(r)[y] == multiset(s)[y];
      assert y in r <==> y in multiset(r);
      assert y in s <==> y in multiset(s);
    }
  }

  /** Filtering out a path that is not listed changes nothing. */
  lemma {:induction false} WithoutAbsent(s: seq<Path>, x: Path)
    requires x !in s
    ensures Without(s, x) == s
  {
    if s != [] {
      var init := s[..|s| - 1];
      assert s == init + [s[|s| - 1]];
      WithoutAbsent(init, x);
    }
  }

  /** Filtering works element by element: it distributes over concatenation, so
      the kept entries stay in their original order. */
  lemma {:induction false} WithoutDistributes(a: seq<Path>, b: seq<Path>, x: Path)
    ensures Without(a + b, x) == Without(a, x) + Without(b, x)
  {
    if b == [] {
      assert a + b == a;
    } else {
      var init, last := b[..|b| - 1], b[|b| - 1];
      assert (a + b)[..|a + b| - 1] == a + init;
      WithoutDistributes(a, init, x);
    }
  }

  /** A duplicate-free list stays duplicate-free after filtering. */
  lemma {:induction false} WithoutKeepsNoDuplicates(s: seq<Path>, x: Path)
    requires NoDuplicates(s)
    ensures NoDuplicates(Without(s, x))
  {
    if s != [] {
      var init, last := s[..|s| - 1], s[|s| - 1];
      assert s == init + [last];
      WithoutKeepsNoDuplicates(init, x);
      WithoutMembers(init, x);
      assert last !in init;
    }
  }

  /** The filtering loop of RemoveFileFromActiveProfile. */
  method FilterOut(files: seq<Path>, path: Path) returns (filtered: seq<Path>, removed: bool)
    ensures removed <==> path in files
    ensures filtered == Without(files, path)
  {
    filtered, removed := [], false;
    var i := 0;
    while i < |files|
      invariant i <= |files|
      invariant removed <==> path in files[..i]
      invariant filtered == Without(files[..i], path)
    {
      var f := files[i];
      ghost var next := files[..i + 1];
      assert next[..i] == files[..i] && next[i] == f;
      assert next == files[..i] + [f];
      if f == path {
        removed := true;
      } else {
        filtered := filtered + [f];
      }
      i := i + 1;
    }
    assert files[..i] == files;
  }

  /** The configuration RemoveFileFromActiveProfile writes back, or its error. */
  function FileRemoved(cfg: Config, path: Path): (r: Result<Config, ConfigError>)
    ensures r.Err? <==> path !in ActiveProfile(cfg).files
    ensures r.Err? ==> r.error == NotInProfile(path)
    ensures r.Ok? ==>
      && cfg.active in cfg.profiles
      && r.value.active == cfg.active
      && r.value.profiles.Keys == cfg.profiles.Keys
      && ActiveProfile(r.value).files == Without(ActiveProfile(cfg).files, path)
      && path !in ActiveProfile(r.value).files
      && ActiveProfile(r.value).lastActive == ActiveProfile(cfg).lastActive
      && (forall n :: n in cfg.profiles && n != cfg.active ==> r.value.profiles[n] == cfg.profiles[n])
  {
    if path !in ActiveProfile(cfg).files then Err(NotInProfile(path))
    else
      WithoutMembers(ActiveProfile(cfg).files, path);
      Ok(WithActiveFiles(cfg, Without(ActiveProfile(cfg).files, path)))
  }

  /** RemoveFileFromActiveProfile: filters the active list; an error when the
      path was not in it. */
  method RemoveFileFromActiveProfile(cfg: Config, path: Path) returns (r: Result<Config, ConfigError>)
    ensures r == FileRemoved(cfg, path)
  {
    var profile := ActiveProfile(cfg);
    var filtered, removed := FilterOut(profile.files, path);
    if !removed {
      return Err(NotInProfile(path));
    }
    profile := profile.(files := filtered);
    r := Ok(cfg.(profiles := cfg.profiles[cfg.active := profile]));
  }

  // Properties of the table operations

  lemma AddProfileKeepsWellFormed(cfg: Config, name: string, now: int)
    requires WellFormed(cfg)
    ensures var r := AddProfile(cfg, name, now); r.Ok? ==> WellFormed(r.value)
  {
  }

  lemma RemoveProfileKeepsWellFormed(cfg: Config, name: string)
    requires WellFormed(cfg)
    ensures var r := RemoveProfile(cfg, name); r.Ok? ==> WellFormed(r.value)
  {
  }

  lemma SetActiveProfileKeepsWellFormed(cfg: Config, name: string, now: int)
    requires WellFormed(cfg)
    ensures var r := SetActiveProfile(cfg, name, now); r.Ok? ==> WellFormed(r.value)
  {
  }

  lemma AddFileKeepsWellFormed(cfg: Config, path: Path, existing: set<Path>)
    requires WellFormed(cfg)
    ensures var r := AddFileToActiveProfile(cfg, path, existing); r.Ok? ==> WellFormed(r.value)
  {
  }

  lemma RemoveFileKeepsWellFormed(cfg: Config, path: Path)
    requires WellFormed(cfg)
    ensures var r := FileRemoved(cfg, path); r.Ok? ==> WellFormed(r.value)
  {
    if path in ActiveProfile(cfg).files {
      WithoutKeepsNoDuplicates(ActiveProfile(cfg).files, path);
    }
  }

  /** Removing a profile just added restores the table it was added to. */
  lemma AddThenRemoveProfile(cfg: Config, name: string, now: int)
    requires WellFormed(cfg)
    requires name !in cfg.profiles
    ensures AddProfile(cfg, name, now).Ok?
    ensures RemoveProfile(AddProfile(cfg, name, now).value, name) == Ok(cfg)
  {
    var added := AddProfile(cfg, name, now).value;
    assert added.profiles - {name} == cfg.profiles;
  }

  /** Removing a file just added to the active profile restores the configuration. */
  lemma AddThenRemoveFile(cfg: Config, path: Path, existing: set<Path>)
    requires cfg.active in cfg.profiles
    requires path in existing && path !in ActiveProfile(cfg).files
    ensures AddFileToActiveProfile(cfg, path, existing).Ok?
    ensures FileRemoved(AddFileToActiveProfile(cfg, path, existing).value, path) == Ok(cfg)
  {
    var files := ActiveProfile(cfg).files;
    var a, p := cfg.active, cfg.profiles[cfg.active];
    var added := cfg.(profiles := cfg.profiles[a := p.(files := files + [path])]);
    assert AddFileToActiveProfile(cfg, path, existing) == Ok(added);
    assert Without(files + [path], path) == files by {
      WithoutDistributes(files, [path], path);
      WithoutAbsent(files, path);
      assert Without([path], path) == [];
    }
    assert FileRemoved(added, path) == Ok(cfg) by {
      assert ActiveProfile(added) == p.(files := files + [path]);
      assert added.profiles[a := p] == cfg.profiles;
    }
  }

  /** When a switch fails after SetActiveProfile(name), the command line calls
      SetActiveProfile with the previously active name. That restores `Active`
      and every file list (the previous profile gets a new timestamp), and it
      fails when no profile was active before. */
  lemma RevertActiveProfile(cfg: Config, name: string, t1: int, t2: int)
    requires name in cfg.profiles
    ensures SetActiveProfile(cfg, name, t1).Ok?
    ensures var reverted := SetActiveProfile(SetActiveProfile(cfg, name, t1).value, cfg.active, t2);
      && (reverted.Ok? <==> cfg.active in cfg.profiles)
      && (reverted.Ok? ==>
            && reverted.value.active == cfg.active
            && reverted.value.profiles.Keys == cfg.profiles.Keys
            && forall n :: n in cfg.profiles ==> reverted.value.profiles[n].files == cfg.profiles[n].files)
  {
  }
}

=== FILE: config_path.dfy ===
/**
 * Where SaveConfig and ReadConfig put the configuration file (config.go):
 * no path means the default file under the home directory; a path whose last
 * element has no "." is taken as a directory and gets `shrimp.toml` appended;
 * any other path is the file itself.
 *
 * `filepath.Base` is modelled for slash-separated paths; `filepath.Join` is
 * modelled as concatenation with one separator, without the lexical clean-up
 * (`filepath.Clean`) that Go applies to the joined result.
 */
module ConfigPath {

  const ConfigFileName := "shrimp.toml"

  /** The file name is a single path element, and it contains a ".". */
  lemma ConfigFileNameIsPlain()
    ensures ConfigFileName != [] && '/' !in ConfigFileName && '.' in ConfigFileName
  {
    assert ConfigFileName[6] == '.';
    forall i | 0 <= i < |ConfigFileName| ensures ConfigFileName[i] != '/' {
    }
  }

  /** The path with every trailing '/' removed. */
  function TrimTrailingSlashes(p: string): (r: string)
    ensures r == [] || r[|r| - 1] != '/'
    ensures |r| <= |p| && r == p[..|r|]
    ensures forall i :: |r| <= i < |p| ==> p[i] == '/'
  {
    if |p| > 0 && p[|p| - 1] == '/' then TrimTrailingSlashes(p[..|p| - 1]) else p
  }

  /** The text after the last '/' (all of it when there is none). */
  function LastElement(p: string): (r: string)
    ensures '/' !in r
    ensures |r| <= |p| && r == p[|p| - |r|..]
    ensures |r| < |p| ==> p[|p| - |r| - 1] == '/'
  {
    if p == [] || p[|p| - 1] == '/' then []
    else LastElement(p[..|p| - 1]) + [p[|p| - 1]]
  }

  /** `filepath.Base`: "." for the empty path, "/" for a path of slashes only,
      otherwise the last element once trailing slashes are dropped. */
  function Base(p: string): (b: string)
    ensures b != []
    ensures '/' in b ==> b == "/"
    ensures p == "" ==> b == "."
    ensures p != "" && (forall i :: 0 <= i < |p| ==> p[i] == '/') ==> b == "/"
    ensures var t := TrimTrailingSlashes(p);
      t != [] ==> '/' !in b && |b| <= |t| && b == t[|t| - |b|..] && (|b| < |t| ==> t[|t| - |b| - 1] == '/')
  {
    if p == "" then "."
    else
      var t := TrimTrailingSlashes(p);
      if t == [] then "/" else assert p[|t| - 1] != '/'; LastElement(t)
  }

  /** `filepath.Join(dir, name)` for a non-empty `dir`, without the clean-up. */
  function JoinPath(dir: string, name: string): (r: string)
    ensures |r| == |dir| + |name| || |r| == |dir| + 1 + |name|
    ensures |r| == |dir| + 1 + |name| <==> dir != [] && dir[|dir| - 1] != '/'
    ensures |r| == |dir| + 1 + |name| ==> r[|dir|] == '/'
    ensures r[..|dir|] == dir && r[|r| - |name|..] == name
  {
    if dir == [] || dir[|dir| - 1] == '/' then dir + name else dir + "/" + name
  }

  /** `getConfigPath`: $HOME/.config/shrimp/shrimp.toml. */
  function DefaultConfigPath(home: string): (r: string)
    ensures |r| > |home| && r[..|home|] == home
    ensures Base(r) == ConfigFileName
    ensures home != [] && home[|home| - 1] != '/' ==> r == home + "/.config/shrimp/shrimp.toml"
    ensures home == [] || home[|home| - 1] == '/' ==> r == home + ".config/shrimp/shrimp.toml"
  {
    var c := JoinPath(home, ".config");
    var dir := JoinPath(c, "shrimp");
    JoinKeepsPrefix(c, "shrimp", home);
    JoinKeepsPrefix(dir, ConfigFileName, home);
    ConfigFileNameIsPlain();
    BaseOfJoin(dir, ConfigFileName);
    DefaultConfigPathSpelledOut(home);
    JoinPath(dir, ConfigFileName)
  }

  /** The three joins of `getConfigPath` written out as one string. */
  lemma DefaultConfigPathSpelledOut(home: string)
    ensures var r := JoinPath(JoinPath(JoinPath(home, ".config"), "shrimp"), ConfigFileName);
      (home != [] && home[|home| - 1] != '/' ==> r == home + "/.config/shrimp/shrimp.toml") &&
      (home == [] || home[|home| - 1] == '/' ==> r == home + ".config/shrimp/shrimp.toml")
  {
    var sep := if home != [] && home[|home| - 1] != '/' then "/" else "";
    DefaultSuffixes();
    JoinThree(home, sep, ".config", "shrimp", ConfigFileName);
  }

  /** The pieces of the default path, glued. */
  lemma DefaultSuffixes()
    ensures ".config" != [] && ".config"[|".config"| - 1] != '/'
    ensures "shrimp" != [] && "shrimp"[|"shrimp"| - 1] != '/'
    ensures "/" + (".config" + ("/" + ("shrimp" + ("/" + ConfigFileName)))) == "/.config/shrimp/shrimp.toml"
    ensures "" + (".config" + ("/" + ("shrimp" + ("/" + ConfigFileName)))) == ".config/shrimp/shrimp.toml"
  {
  }

  /** Three joins, the inner two onto names that do not end in '/'. */
  lemma JoinThree(dir: string, sep: string, a: string, b: string, c: string)
    requires sep == if dir != [] && dir[|dir| - 1] != '/' then "/" else ""
    requires a != [] && a[|a| - 1] != '/' && b != [] && b[|b| - 1] != '/'
    ensures JoinPath(JoinPath(JoinPath(dir, a), b), c) == dir + (sep + (a + ("/" + (b + ("/" + c)))))
  {
    var x := JoinPath(dir, a);
    assert x == dir + (sep + a) by {
      assert x == dir + sep + a;
      Associates(dir, sep, a);
    }
    assert x[|x| - 1] == a[|a| - 1];
    var y := JoinPath(x, b);
    var p := sep + (a + ("/" + b));
    assert y == dir + p by {
      assert y == x + "/" + b;
      Associates(x, "/", b);
      Associates(dir, sep + a, "/" + b);
      Associates(sep, a, "/" + b);
    }
    assert y[|y| - 1] == b[|b| - 1];
    var q := "/" + c;
    assert p + q == sep + (a + ("/" + (b + q))) by {
      Associates(sep, a + ("/" + b), q);
      Associates(a, "/" + b, q);
      Associates("/", b, q);
    }
    assert JoinPath(y, c) == dir + (p + q) by {
      assert JoinPath(y, c) == y + "/" + c;
      Associates(y, "/", c);
      Associates(dir, p, q);
    }
  }

  lemma Associates(a: string, b: string, c: string)
    ensures a + b + c == a + (b + c)
  {
  }

  /** Joining onto a path that starts with `p` gives a longer path that still starts with `p`. */
  lemma JoinKeepsPrefix(dir: string, name: string, p: string)
    requires |p| <= |dir| && dir[..|p|] == p && name != []
    ensures |JoinPath(dir, name)| > |p| && JoinPath(dir, name)[..|p|] == p
  {
    var r := JoinPath(dir, name);
    assert r[..|p|] == r[..|dir|][..|p|];
  }

  /** The last element of a path that ends in a non-empty, slash-free name is that name. */
  lemma {:induction false} LastElementOfJoin(prefix: string, name: string)
    requires prefix == [] || prefix[|prefix| - 1] == '/'
    requires '/' !in name
    ensures LastElement(prefix + name) == name
  {
    if name == [] {
      assert prefix + name == prefix;
    } else {
      var init := name[..|name| - 1];
      assert (prefix + name)[..|prefix + name| - 1] == prefix + init;
      LastElementOfJoin(prefix, init);
    }
  }

  /** Joining a slash-free name onto a directory yields a path whose base is that name. */
  lemma BaseOfJoin(dir: string, name: string)
    requires name != [] && '/' !in name
    ensures Base(JoinPath(dir, name)) == name
  {
    var j := JoinPath(dir, name);
    var prefix := if dir == [] || dir[|dir| - 1] == '/' then dir else dir + "/";
    assert j == prefix + name;
    assert j[|j| - 1] == name[|name| - 1] != '/';
    assert TrimTrailingSlashes(j) == j;
    LastElementOfJoin(prefix, name);
  }

  /** The configuration file SaveConfig writes and ReadConfig reads for `path`. */
  function ResolveConfigPath(path: string, home: string): (r: string)
    ensures path != "" && '.' in Base(path) ==> r == path
    ensures path != "" && '.' !in Base(path) ==>
      r == path + (if path[|path| - 1] == '/' then "" else "/") + ConfigFileName
    ensures path != "" && '.' !in Base(path) ==>
      |r| > |path| && r[..|path|] == path && Base(r) == ConfigFileName
    ensures path == "" ==> r == DefaultConfigPath(home)
    ensures path == "" ==> |r| > |home| && r[..|home|] == home && Base(r) == ConfigFileName
    ensures r != "" && '.' in Base(r)
  {
    if path == "" then
      ConfigFileNameIsPlain();
      DefaultConfigPath(home)
    else if '.' !in Base(path) then
      AppendConfigFileName(path);
      JoinPath(path, ConfigFileName)
    else path
  }

  /** A directory path with the configuration file name appended. */
  lemma AppendConfigFileName(path: string)
    requires path != ""
    ensures var r := JoinPath(path, ConfigFileName);
      && r == path + (if path[|path| - 1] == '/' then "" else "/") + ConfigFileName
      && |r| > |path| && r[..|path|] == path
      && Base(r) == ConfigFileName && '.' in Base(r)
  {
    ConfigFileNameIsPlain();
    BaseOfJoin(path, ConfigFileName);
  }

  /** Both SaveConfig and ReadConfig resolve the path they are given; resolving
      an already resolved path leaves it as it is, so a resolved path can be
      passed on safely. */
  lemma ResolveConfigPathIdempotent(path: string, home: string)
    ensures ResolveConfigPath(ResolveConfigPath(path, home), home) == ResolveConfigPath(path, home)
  {
  }
}

=== FILE: filesystem.dfy ===
/**
 * The part of the operating system that the profile engine uses: `os.Stat`,
 * `os.Rename` and `os.RemoveAll`, over a filesystem abstracted as the set of
 * paths that exist. Which operations fail for reasons other than a missing
 * source (permissions, a busy file, another device) is not something the
 * program decides; it is the fixed set `failing` of paths on which any rename
 * or removal errors.
 */
module FileSystem {

  type Path = string

  /** `os.Rename(src, dst)` succeeds when the source exists and neither end is faulty. */
  predicate RenameSucceeds(paths: set<Path>, failing: set<Path>, src: Path, dst: Path) {
    src in paths && src !in failing && dst !in failing
  }

  /** The existing paths after a successful rename: the source is gone and the
      destination exists (an existing destination is replaced). */
  function Renamed(paths: set<Path>, src: Path, dst: Path): (r: set<Path>)
    ensures dst in r && (src != dst ==> src !in r)
    ensures forall q :: q != src && q != dst ==> (q in r <==> q in paths)
  {
    paths - {src} + {dst}
  }

  class Fs {
    var paths: set<Path>
    const failing: set<Path>

    constructor (paths: set<Path>, failing: set<Path>)
      ensures this.paths == paths && this.failing == failing
    {
      this.paths := paths;
      this.failing := failing;
    }

    /** `os.Stat(p)` reports the path as present. */
    function Exists(p: Path): bool
      reads this
    {
      p in paths
    }

    method Rename(src: Path, dst: Path) returns (ok: bool)
      modifies this
      ensures ok == RenameSucceeds(old(paths), failing, src, dst)
      ensures paths == if ok then Renamed(old(paths), src, dst) else old(paths)
    {
      ok := RenameSucceeds(paths, failing, src, dst);
      if ok {
        paths := Renamed(paths, src, dst);
      }
    }

    /** `os.RemoveAll(p)`: removing a missing path is not an error. */
    method RemoveAll(p: Path) returns (ok: bool)
      modifies this
      ensures ok == (p !in failing)
      ensures paths == if ok then old(paths) - {p} else old(paths)
    {
      ok := p !in failing;
      if ok {
        paths := paths - {p};
      }
    }
  }
}

=== FILE: profile_properties.dfy ===
/**
 * What ActivateProfile and DeactivateAll guarantee, proved about their
 * specification functions: stopping at the first filesystem error without
 * undoing earlier moves, which paths they can touch, the exact filesystem
 * after a successful run, and that parking a profile's files and bringing them
 * back restores the filesystem.
 */
module ShrimpProfileProperties {
  import opened Wrappers
  import opened FileSystem
  import opened ShrimpConfig
  import opened ShrimpProfiles

  /** The live paths of a list of managed files. */
  function LiveSet(files: seq<Path>): set<Path> {
    set f | f in files
  }

  /** The parked paths of a list of managed files of profile `n`. */
  function ParkedSet(files: seq<Path>, n: string): set<Path> {
    if files == [] then {} else {Parked(files[0], n)} + ParkedSet(files[1..], n)
  }

  /** No rename or removal of these files, live or parked, fails. */
  predicate NoneFailing(files: seq<Path>, n: string, failing: set<Path>) {
    forall f :: f in files ==> f !in failing && Parked(f, n) !in failing
  }

  // Parked names

  /** A parked name is never the live name, and it determines the file for a
      given profile and the profile for a given file. */
  lemma ParkedNamesDistinct(f: Path, g: Path, n: string, m: string)
    ensures Parked(f, n) != f
    ensures Parked(f, n) == Parked(g, n) ==> f == g
    ensures Parked(f, n) == Parked(f, m) ==> n == m
  {
    if Parked(f, n) == Parked(f, m) {
      assert |n| == |m|;
      assert n == Parked(f, n)[|f| + 1..|f| + 1 + |n|];
    }
  }

  /** The parked path of `f` is among the parked paths of a list exactly when
      `f` is in the list. */
  lemma ParkedSetMembers(files: seq<Path>, n: string, f: Path)
    ensures Parked(f, n) in ParkedSet(files, n) <==> f in files
  {
    if files != [] {
      ParkedNamesDistinct(f, files[0], n, n);
      ParkedSetMembers(files[1..], n, f);
    }
  }

  // ActivateProfile

  /** Processing `xs + ys` is processing `xs`, then `ys` from where that left
      off; once a run has failed, `ys` is not processed at all. */
  lemma {:induction false} ActivatingAppend(xs: seq<Path>, ys: seq<Path>, n: string, force: bool, dry: bool, failing: set<Path>, s: Run)
    ensures Activating(xs + ys, n, force, dry, failing, s)
         == Activating(ys, n, force, dry, failing, Activating(xs, n, force, dry, failing, s))
  {
    if xs == [] {
      assert xs + ys == ys;
    } else if s.failure.None? {
      assert (xs + ys)[0] == xs[0] && (xs + ys)[1..] == xs[1..] + ys;
      ActivatingAppend(xs[1..], ys, n, force, dry, failing, ActivateStep(xs[0], n, force, dry, failing, s));
    }
  }

  /** A missing parked file stops the loop at that file: the files before it
      have been moved and stay moved, the files after it are not looked at. */
  lemma ActivateStopsAtMissingParked(xs: seq<Path>, y: Path, zs: seq<Path>, n: string, force: bool, dry: bool, failing: set<Path>, s: Run)
    requires Activating(xs, n, force, dry, failing, s).failure.None?
    requires Parked(y, n) !in Activating(xs, n, force, dry, failing, s).paths
    ensures Activating(xs + [y] + zs, n, force, dry, failing, s)
         == Activating(xs, n, force, dry, failing, s).(failure := Some(MissingParked(Parked(y, n))))
  {
    assert xs + [y] + zs == xs + ([y] + zs);
    ActivatingAppend(xs, [y] + zs, n, force, dry, failing, s);
    assert ([y] + zs)[1..] == zs;
  }

  /** A failed rename ends a real activation run with that error. A live file
      removed to make room stays removed; earlier files stay live and later
      files are untouched. */
  lemma ActivateStopsAtRenameError(xs: seq<Path>, y: Path, zs: seq<Path>, n: string, force: bool, failing: set<Path>, s: Run)
    requires var t := Activating(xs, n, force, false, failing, s);
      && t.failure.None? && Parked(y, n) in t.paths
      && (y !in t.paths || force)
      && !(y in t.paths && y in failing)
      && !RenameSucceeds(t.paths - {y}, failing, Parked(y, n), y)
    ensures var t := Activating(xs, n, force, false, failing, s);
      Activating(xs + [y] + zs, n, force, false, failing, s)
        == t.(paths := t.paths - {y}, failure := Some(RenameFailed(Parked(y, n), y)))
  {
    assert xs + [y] + zs == xs + ([y] + zs);
    ActivatingAppend(xs, [y] + zs, n, force, false, failing, s);
    assert ([y] + zs)[1..] == zs;
  }

  /** Without force, an occupied live path is left alone, together with its
      parked file, and counts one warning. */
  lemma ActivateSkipsOccupied(xs: seq<Path>, y: Path, zs: seq<Path>, n: string, dry: bool, failing: set<Path>, s: Run)
    requires Activating(xs, n, false, dry, failing, s).failure.None?
    requires y in Activating(xs, n, false, dry, failing, s).paths
    requires Parked(y, n) in Activating(xs, n, false, dry, failing, s).paths
    ensures var t := Activating(xs, n, false, dry, failing, s);
      Activating(xs + [y] + zs, n, false, dry, failing, s)
      == Activating(zs, n, false, dry, failing, t.(warnings := t.warnings + 1))
  {
    assert xs + [y] + zs == xs + ([y] + zs);
    ActivatingAppend(xs, [y] + zs, n, false, dry, failing, s);
    assert ([y] + zs)[1..] == zs;
  }

  /** ...and such a warning makes a real (not dry) activation fail. */
  lemma ActivateOccupiedFails(cfg: Config, name: string, xs: seq<Path>, y: Path, zs: seq<Path>, paths: set<Path>, failing: set<Path>)
    requires name in cfg.profiles
    requires FilesOf(cfg, cfg.active) == xs + [y] + zs
    requires var t := Activating(xs, cfg.active, false, false, failing, Run(paths, 0, None));
      t.failure.None? && y in t.paths && Parked(y, cfg.active) in t.paths
    ensures ActivateResult(cfg, name, false, false, paths, failing).failure.Some?
  {
    ActivateSkipsOccupied(xs, y, zs, cfg.active, false, failing, Run(paths, 0, None));
  }

  /** Activation changes no path other than the live and parked paths of the
      files it processes. */
  lemma {:induction false} ActivatingFrame(files: seq<Path>, n: string, force: bool, dry: bool, failing: set<Path>, s: Run, q: Path)
    requires q !in files && q !in ParkedSet(files, n)
    ensures q in Activating(files, n, force, dry, failing, s).paths <==> q in s.paths
  {
    if files != [] && s.failure.None? {
      var t := ActivateStep(files[0], n, force, dry, failing, s);
      ActivateStepCases(files[0], n, force, dry, failing, s);
      ActivatingFrame(files[1..], n, force, dry, failing, t, q);
    }
  }

  /** ActivateProfile only ever changes the live and parked paths of the active
      profile's files. */
  lemma ActivateProfileFrame(cfg: Config, name: string, force: bool, dry: bool, paths: set<Path>, failing: set<Path>, q: Path)
    requires q !in FilesOf(cfg, cfg.active) && q !in ParkedSet(FilesOf(cfg, cfg.active), cfg.active)
    ensures q in ActivateResult(cfg, name, force, dry, paths, failing).paths <==> q in paths
  {
    if name in cfg.profiles {
      ActivatingFrame(FilesOf(cfg, cfg.active), cfg.active, force, dry, failing, Run(paths, 0, None), q);
    }
  }

  /** A real activation that neither fails nor warns leaves every processed file
      live and none of them parked, removing (with force) what was at the live
      path before; all other paths are as they were. */
  lemma {:induction false} ActivatingState(files: seq<Path>, n: string, force: bool, failing: set<Path>, s: Run)
    requires LiveSet(files) !! ParkedSet(files, n)
    requires Activating(files, n, force, false, failing, s).failure.None?
    requires Activating(files, n, force, false, failing, s).warnings == s.warnings
    ensures Activating(files, n, force, false, failing, s).paths == s.paths - ParkedSet(files, n) + LiveSet(files)
  {
    if files != [] {
      var f, rest := files[0], files[1..];
      var t := ActivateStep(f, n, force, false, failing, s);
      ActivateStepCases(f, n, force, false, failing, s);
      assert LiveSet(files) == {f} + LiveSet(rest);
      ActivatingState(rest, n, force, failing, t);
    }
  }

  /** A successful, real ActivateProfile: the active profile's files are all live
      and none of them is parked. */
  lemma ActivateProfileSucceeds(cfg: Config, name: string, force: bool, paths: set<Path>, failing: set<Path>)
    requires LiveSet(FilesOf(cfg, cfg.active)) !! ParkedSet(FilesOf(cfg, cfg.active), cfg.active)
    requires ActivateResult(cfg, name, force, false, paths, failing).failure.None?
    ensures name in cfg.profiles
    ensures ActivateResult(cfg, name, force, false, paths, failing).paths
         == paths - ParkedSet(FilesOf(cfg, cfg.active), cfg.active) + LiveSet(FilesOf(cfg, cfg.active))
  {
    ActivatingState(FilesOf(cfg, cfg.active), cfg.active, force, failing, Run(paths, 0, None));
  }

  /** Activating again right after a successful activation does not succeed: the
      parked file of the first file is gone, so the second call reports it missing. */
  lemma ActivateTwiceReportsMissing(cfg: Config, name: string, force: bool, paths: set<Path>, failing: set<Path>)
    requires FilesOf(cfg, cfg.active) != []
    requires LiveSet(FilesOf(cfg, cfg.active)) !! ParkedSet(FilesOf(cfg, cfg.active), cfg.active)
    requires ActivateResult(cfg, name, force, false, paths, failing).failure.None?
    ensures var again := ActivateResult(cfg, name, force, false, ActivateResult(cfg, name, force, false, paths, failing).paths, failing);
      again.failure == Some(MissingParked(Parked(FilesOf(cfg, cfg.active)[0], cfg.active)))
  {
    var files := FilesOf(cfg, cfg.active);
    ActivateProfileSucceeds(cfg, name, force, paths, failing);
    assert Parked(files[0], cfg.active) in ParkedSet(files, cfg.active);
    ActivateStopsAtMissingParked([], files[0], files[1..], cfg.active, force, false, failing,
      Run(ActivateResult(cfg, name, force, false, paths, failing).paths, 0, None));
    assert [] + [files[0]] + files[1..] == files;
  }

  /** The name passed to ActivateProfile is only checked: any two existing names
      give the same outcome, that of the active profile. */
  lemma ActivateUsesActiveProfile(cfg: Config, name1: string, name2: string, force: bool, dry: bool, paths: set<Path>, failing: set<Path>)
    requires name1 in cfg.profiles && name2 in cfg.profiles
    ensures ActivateResult(cfg, name1, force, dry, paths, failing) == ActivateResult(cfg, name2, force, dry, paths, failing)
  {
  }

  /** Used as intended, after SetActiveProfile(name), ActivateProfile(name)
      brings back the files of `name` from their parked paths under `name`. */
  lemma ActivateAfterSetActive(cfg: Config, name: string, now: int, force: bool, dry: bool, paths: set<Path>, failing: set<Path>)
    requires name in cfg.profiles
    ensures SetActiveProfile(cfg, name, now).Ok?
    ensures ActivateResult(SetActiveProfile(cfg, name, now).value, name, force, dry, paths, failing)
         == Finish(Activating(cfg.profiles[name].files, name, force, dry, failing, Run(paths, 0, None)), dry)
  {
  }

  // DeactivateAll

  /** Processing `xs + ys` is processing `xs`, then `ys`; after a failed rename
      nothing further is processed. */
  lemma {:induction false} ParkingAppend(xs: seq<Path>, ys: seq<Path>, n: string, force: bool, dry: bool, failing: set<Path>, s: Run)
    ensures Parking(xs + ys, n, force, dry, failing, s)
         == Parking(ys, n, force, dry, failing, Parking(xs, n, force, dry, failing, s))
  {
    if xs == [] {
      assert xs + ys == ys;
    } else if s.failure.None? {
      assert (xs + ys)[0] == xs[0] && (xs + ys)[1..] == xs[1..] + ys;
      ParkingAppend(xs[1..], ys, n, force, dry, failing, ParkStep(xs[0], n, force, dry, failing, s));
    }
  }

  /** The same over the profiles: a profile whose parking failed is the last
      one processed. */
  lemma {:induction false} DeactivatingAppend(cfg: Config, o1: seq<string>, o2: seq<string>, force: bool, dry: bool, failing: set<Path>, s: Run)
    ensures DeactivatingProfiles(cfg, o1 + o2, force, dry, failing, s)
         == DeactivatingProfiles(cfg, o2, force, dry, failing, DeactivatingProfiles(cfg, o1, force, dry, failing, s))
  {
    if o1 == [] {
      assert o1 + o2 == o2;
    } else if s.failure.None? {
      assert (o1 + o2)[0] == o1[0] && (o1 + o2)[1..] == o1[1..] + o2;
      var t := if o1[0] == cfg.active then s else Parking(FilesOf(cfg, o1[0]), o1[0], force, dry, failing, s);
      DeactivatingAppend(cfg, o1[1..], o2, force, dry, failing, t);
    }
  }

  /** A rename error returns at once: the files before it stay parked, the file
      itself and the files after it are left as they are. */
  lemma DeactivateStopsAtRenameError(xs: seq<Path>, y: Path, zs: seq<Path>, n: string, force: bool, failing: set<Path>, s: Run)
    requires var t := Parking(xs, n, force, false, failing, s);
      && t.failure.None? && y in t.paths
      && (Parked(y, n) !in t.paths || force)
      && !RenameSucceeds(t.paths, failing, y, Parked(y, n))
    ensures Parking(xs + [y] + zs, n, force, false, failing, s)
         == Parking(xs, n, force, false, failing, s).(failure := Some(RenameFailed(y, Parked(y, n))))
  {
    assert xs + [y] + zs == xs + ([y] + zs);
    ParkingAppend(xs, [y] + zs, n, force, false, failing, s);
    assert ([y] + zs)[1..] == zs;
  }

  /** Parking changes no path other than the live and parked paths of the files
      it processes. */
  lemma {:induction false} ParkingFrame(files: seq<Path>, n: string, force: bool, dry: bool, failing: set<Path>, s: Run, q: Path)
    requires q !in files && q !in ParkedSet(files, n)
    ensures q in Parking(files, n, force, dry, failing, s).paths <==> q in s.paths
  {
    if files != [] && s.failure.None? {
      var t := ParkStep(files[0], n, force, dry, failing, s);
      ParkStepCases(files[0], n, force, dry, failing, s);
      ParkingFrame(files[1..], n, force, dry, failing, t, q);
    }
  }

  /** A path that is neither a file of a profile visited other than the active
      one, nor the parked path of such a file, is not touched by DeactivateAll;
      in particular the files of the active profile are never processed. */
  lemma {:induction false} DeactivatingFrame(cfg: Config, order: seq<string>, force: bool, dry: bool, failing: set<Path>, s: Run, q: Path)
    requires forall k :: 0 <= k < |order| && order[k] != cfg.active ==>
      q !in FilesOf(cfg, order[k]) && q !in ParkedSet(FilesOf(cfg, order[k]), order[k])
    ensures q in DeactivatingProfiles(cfg, order, force, dry, failing, s).paths <==> q in s.paths
  {
    if order != [] && s.failure.None? {
      var n := order[0];
      var t := if n == cfg.active then s else Parking(FilesOf(cfg, n), n, force, dry, failing, s);
      if n != cfg.active {
        ParkingFrame(FilesOf(cfg, n), n, force, dry, failing, s, q);
      }
      DeactivatingFrame(cfg, order[1..], force, dry, failing, t, q);
    }
  }

  /** DeactivateAll depends on nothing in the active profile's entry: replacing
      it by any other profile gives the same outcome. */
  lemma {:induction false} DeactivateIgnoresActiveProfile(cfg: Config, p: Profile, order: seq<string>, force: bool, dry: bool, failing: set<Path>, s: Run)
    ensures DeactivatingProfiles(cfg.(profiles := cfg.profiles[cfg.active := p]), order, force, dry, failing, s)
         == DeactivatingProfiles(cfg, order, force, dry, failing, s)
  {
    var cfg' := cfg.(profiles := cfg.profiles[cfg.active := p]);
    if order != [] && s.failure.None? {
      var n := order[0];
      assert n != cfg.active ==> FilesOf(cfg', n) == FilesOf(cfg, n);
      var t := if n == cfg.active then s else Parking(FilesOf(cfg, n), n, force, dry, failing, s);
      DeactivateIgnoresActiveProfile(cfg, p, order[1..], force, dry, failing, t);
    }
  }

  /** A real parking run that neither fails nor warns leaves every processed file
      parked and none of them live. */
  lemma {:induction false} ParkingState(files: seq<Path>, n: string, force: bool, failing: set<Path>, s: Run)
    requires LiveSet(files) !! ParkedSet(files, n)
    requires Parking(files, n, force, false, failing, s).failure.None?
    requires Parking(files, n, force, false, failing, s).warnings == s.warnings
    ensures Parking(files, n, force, false, failing, s).paths == s.paths - LiveSet(files) + ParkedSet(files, n)
  {
    if files != [] {
      var f, rest := files[0], files[1..];
      var t := ParkStep(f, n, force, false, failing, s);
      ParkStepCases(f, n, force, false, failing, s);
      assert LiveSet(files) == {f} + LiveSet(rest);
      ParkingState(rest, n, force, failing, t);
    }
  }

  /** The live paths of the profiles in `order` other than the active one. */
  function InactiveLive(cfg: Config, order: seq<string>): set<Path> {
    if order == [] then {}
    else (if order[0] == cfg.active then {} else LiveSet(FilesOf(cfg, order[0]))) + InactiveLive(cfg, order[1..])
  }

  /** The parked paths of the profiles in `order` other than the active one. */
  function InactiveParked(cfg: Config, order: seq<string>): set<Path> {
    if order == [] then {}
    else (if order[0] == cfg.active then {} else ParkedSet(FilesOf(cfg, order[0]), order[0])) + InactiveParked(cfg, order[1..])
  }

  lemma {:induction false} DeactivatingState(cfg: Config, order: seq<string>, force: bool, failing: set<Path>, s: Run)
    requires InactiveLive(cfg, order) !! InactiveParked(cfg, order)
    requires DeactivatingProfiles(cfg, order, force, false, failing, s).failure.None?
    requires DeactivatingProfiles(cfg, order, force, false, failing, s).warnings == s.warnings
    ensures DeactivatingProfiles(cfg, order, force, false, failing, s).paths
         == s.paths - InactiveLive(cfg, order) + InactiveParked(cfg, order)
  {
    if order != [] {
      var n := order[0];
      var t := if n == cfg.active then s else Parking(FilesOf(cfg, n), n, force, false, failing, s);
      if n != cfg.active {
        ParkingState(FilesOf(cfg, n), n, force, failing, s);
      }
      DeactivatingState(cfg, order[1..], force, failing, t);
    }
  }

  /** A successful, real DeactivateAll: every file of every inactive profile is
      parked and none is live, provided no live path of those files is also a
      parked path of one of them. */
  lemma DeactivateAllSucceeds(cfg: Config, order: seq<string>, force: bool, paths: set<Path>, failing: set<Path>)
    requires InactiveLive(cfg, order) !! InactiveParked(cfg, order)
    requires DeactivateResult(cfg, order, force, false, paths, failing).failure.None?
    ensures DeactivateResult(cfg, order, force, false, paths, failing).paths
         == paths - InactiveLive(cfg, order) + InactiveParked(cfg, order)
  {
    DeactivatingState(cfg, order, force, failing, Run(paths, 0, None));
  }

  /** Neither a file of profile `m` nor the parked path of one. */
  predicate Untouched(cfg: Config, m: string, q: Path) {
    q !in FilesOf(cfg, m) && q !in ParkedSet(FilesOf(cfg, m), m)
  }

  /** A live file `g` of an inactive profile `n`, without a parked copy, is
      parked by a run over `n`'s list that does not fail, provided no other
      entry of the list is `g`'s parked path or has `g` as its own. */
  lemma {:induction false} ParkingParksFile(files: seq<Path>, n: string, force: bool, failing: set<Path>, s: Run, g: Path)
    requires NoDuplicates(files) && g in files
    requires Parked(g, n) !in files && g !in ParkedSet(files, n)
    requires g in s.paths && Parked(g, n) !in s.paths
    ensures var r := Parking(files, n, force, false, failing, s);
      r.failure.None? ==> g !in r.paths && Parked(g, n) in r.paths
  {
    if s.failure.None? {
      var h, rest := files[0], files[1..];
      var t := ParkStep(h, n, force, false, failing, s);
      ParkStepCases(h, n, force, false, failing, s);
      if t.failure.None? {
        if h == g {
          assert g !in rest;
          ParkedSetMembers(rest, n, g);
          ParkingFrame(rest, n, force, false, failing, t, g);
          ParkingFrame(rest, n, force, false, failing, t, Parked(g, n));
        } else {
          ParkedNamesDistinct(g, h, n, n);
          assert NoDuplicates(rest) by {
            forall i, j | 0 <= i < j < |rest| ensures rest[i] != rest[j] {
              assert rest[i] == files[i + 1] && rest[j] == files[j + 1];
            }
          }
          ParkingParksFile(rest, n, force, failing, t, g);
        }
      }
    }
  }

  /** DeactivateAll has no shared-file check. Take a live file `g` of an inactive
      profile `n` with no parked copy. If the run succeeds, `g` has been parked
      under `n`'s name. This holds whether or not the active profile lists `g`.
      The run must reach `g` unaltered: no other inactive profile lists `g` or
      its parked path, or parks a file onto either, and `n`'s own list has no
      such entry either. */
  lemma DeactivateParksInactiveFile(cfg: Config, order: seq<string>, force: bool, paths: set<Path>, failing: set<Path>, n: string, g: Path)
    requires IsIterationOrder(order, cfg)
    requires n in cfg.profiles && n != cfg.active
    requires NoDuplicates(FilesOf(cfg, n)) && g in FilesOf(cfg, n)
    requires Parked(g, n) !in FilesOf(cfg, n) && g !in ParkedSet(FilesOf(cfg, n), n)
    requires forall m :: m in cfg.profiles && m != cfg.active && m != n ==>
      Untouched(cfg, m, g) && Untouched(cfg, m, Parked(g, n))
    requires g in paths && Parked(g, n) !in paths
    ensures var r := DeactivateResult(cfg, order, force, false, paths, failing);
      r.failure.None? ==> g !in r.paths && Parked(g, n) in r.paths
  {
    var o1, o2 := SplitOrder(order, cfg, n);
    ParksAcrossOrder(cfg, o1, o2, force, paths, failing, n, g);
  }

  /** DeactivateParksInactiveFile for an order split around `n`. */
  lemma ParksAcrossOrder(cfg: Config, o1: seq<string>, o2: seq<string>, force: bool, paths: set<Path>, failing: set<Path>, n: string, g: Path)
    requires n !in o1 && forall m :: m in o1 ==> m in cfg.profiles
    requires n !in o2 && forall m :: m in o2 ==> m in cfg.profiles
    requires n != cfg.active
    requires NoDuplicates(FilesOf(cfg, n)) && g in FilesOf(cfg, n)
    requires Parked(g, n) !in FilesOf(cfg, n) && g !in ParkedSet(FilesOf(cfg, n), n)
    requires forall m :: m in cfg.profiles && m != cfg.active && m != n ==>
      Untouched(cfg, m, g) && Untouched(cfg, m, Parked(g, n))
    requires g in paths && Parked(g, n) !in paths
    ensures var r := DeactivatingProfiles(cfg, o1 + [n] + o2, force, false, failing, Run(paths, 0, None));
      r.failure.None? ==> g !in r.paths && Parked(g, n) in r.paths
  {
    var s0 := Run(paths, 0, None);
    var s1 := DeactivatingProfiles(cfg, o1, force, false, failing, s0);
    var s2 := DeactivatingProfiles(cfg, [n], force, false, failing, s1);
    var s3 := DeactivatingProfiles(cfg, o2, force, false, failing, s2);
    assert DeactivatingProfiles(cfg, o1 + [n] + o2, force, false, failing, s0) == s3 by {
      assert o1 + [n] + o2 == o1 + ([n] + o2);
      DeactivatingAppend(cfg, o1, [n] + o2, force, false, failing, s0);
      DeactivatingAppend(cfg, [n], o2, force, false, failing, s1);
    }
    if s3.failure.None? {
      assert s2.failure.None? && s1.failure.None?;
      assert s2 == Parking(FilesOf(cfg, n), n, force, false, failing, s1) by {
        var t := Parking(FilesOf(cfg, n), n, force, false, failing, s1);
        assert [n][0] == n && [n][1..] == [];
        assert DeactivatingProfiles(cfg, [], force, false, failing, t) == t;
      }
      assert g in s1.paths && Parked(g, n) !in s1.paths by {
        OtherProfilesKeep(cfg, o1, force, failing, s0, n, g);
        OtherProfilesKeep(cfg, o1, force, failing, s0, n, Parked(g, n));
      }
      assert g !in s2.paths && Parked(g, n) in s2.paths by {
        ParkingParksFile(FilesOf(cfg, n), n, force, failing, s1, g);
      }
      OtherProfilesKeep(cfg, o2, force, failing, s2, n, g);
      OtherProfilesKeep(cfg, o2, force, failing, s2, n, Parked(g, n));
    }
  }

  /** An iteration order visits `n` once: the names before it and after it are
      other profiles. */
  lemma SplitOrder(order: seq<string>, cfg: Config, n: string) returns (o1: seq<string>, o2: seq<string>)
    requires IsIterationOrder(order, cfg) && n in cfg.profiles
    ensures order == o1 + [n] + o2
    ensures n !in o1 && forall m :: m in o1 ==> m in cfg.profiles
    ensures n !in o2 && forall m :: m in o2 ==> m in cfg.profiles
  {
    var i :| 0 <= i < |order| && order[i] == n;
    o1, o2 := order[..i], order[i + 1..];
    assert order == o1 + [n] + o2;
    forall k | 0 <= k < |o1| ensures o1[k] != n && o1[k] in cfg.profiles {
      assert o1[k] == order[k] && order[k] in order;
    }
    forall k | 0 <= k < |o2| ensures o2[k] != n && o2[k] in cfg.profiles {
      assert o2[k] == order[i + 1 + k] && order[i + 1 + k] in order;
    }
  }

  /** Visiting profiles other than `n` that leave `q` untouched keeps `q` as it was. */
  lemma OtherProfilesKeep(cfg: Config, os: seq<string>, force: bool, failing: set<Path>, s: Run, n: string, q: Path)
    requires n !in os && forall m :: m in os ==> m in cfg.profiles
    requires forall m :: m in cfg.profiles && m != cfg.active && m != n ==> Untouched(cfg, m, q)
    ensures q in DeactivatingProfiles(cfg, os, force, false, failing, s).paths <==> q in s.paths
  {
    forall k | 0 <= k < |os| && os[k] != cfg.active
      ensures q !in FilesOf(cfg, os[k]) && q !in ParkedSet(FilesOf(cfg, os[k]), os[k])
    {
      assert os[k] in os;
    }
    DeactivatingFrame(cfg, os, force, false, failing, s, q);
  }

  /** A listed file whose parked path is missing, and is not created by the loop
      itself, makes the activation loop fail. The loop fails at that file at the
      latest. */
  lemma {:induction false} ActivatingReportsMissing(files: seq<Path>, n: string, force: bool, dry: bool, failing: set<Path>, s: Run, g: Path)
    requires g in files && Parked(g, n) !in files
    requires Parked(g, n) !in s.paths
    ensures Activating(files, n, force, dry, failing, s).failure.Some?
  {
    if s.failure.None? {
      var h := files[0];
      var t := ActivateStep(h, n, force, dry, failing, s);
      ActivateStepCases(h, n, force, dry, failing, s);
      if h != g && t.failure.None? {
        ParkedNamesDistinct(g, h, n, n);
        ActivatingReportsMissing(files[1..], n, force, dry, failing, t, g);
      }
    }
  }

  /** ActivateProfile fails when a file of the active profile has no parked copy
      (unless the active profile lists that parked path itself). */
  lemma ActivateFailsWithoutParkedCopy(cfg: Config, name: string, force: bool, dry: bool, paths: set<Path>, failing: set<Path>, g: Path)
    requires g in FilesOf(cfg, cfg.active) && Parked(g, cfg.active) !in FilesOf(cfg, cfg.active)
    requires Parked(g, cfg.active) !in paths
    ensures ActivateResult(cfg, name, force, dry, paths, failing).failure.Some?
  {
    ActivatingReportsMissing(FilesOf(cfg, cfg.active), cfg.active, force, dry, failing, Run(paths, 0, None), g);
  }

  /** A file shared by the active profile and an inactive profile `n`, under the
      conditions of DeactivateParksInactiveFile. Suppose the active profile's
      parked copy of `g` is absent and DeactivateAll does not create it. Then a
      successful DeactivateAll parks `g` under `n`'s name, and the
      ActivateProfile that follows fails. */
  lemma SharedFileIsParked(cfg: Config, order: seq<string>, force: bool, paths: set<Path>, failing: set<Path>, n: string, g: Path)
    requires IsIterationOrder(order, cfg)
    requires n in cfg.profiles && n != cfg.active
    requires g in FilesOf(cfg, cfg.active) && g in FilesOf(cfg, n)
    requires NoDuplicates(FilesOf(cfg, n))
    requires Parked(g, n) !in FilesOf(cfg, n) && g !in ParkedSet(FilesOf(cfg, n), n)
    requires forall m :: m in cfg.profiles && m != cfg.active && m != n ==>
      Untouched(cfg, m, g) && Untouched(cfg, m, Parked(g, n))
    requires g in paths && Parked(g, n) !in paths
    requires Parked(g, cfg.active) !in paths && Parked(g, cfg.active) !in FilesOf(cfg, cfg.active)
    requires forall m :: m in cfg.profiles && m != cfg.active ==> Untouched(cfg, m, Parked(g, cfg.active))
    ensures var r := DeactivateResult(cfg, order, force, false, paths, failing);
      r.failure.None? ==>
        && g !in r.paths && Parked(g, n) in r.paths
        && ActivateResult(cfg, cfg.active, force, false, r.paths, failing).failure.Some?
  {
    var r := DeactivateResult(cfg, order, force, false, paths, failing);
    DeactivateParksInactiveFile(cfg, order, force, paths, failing, n, g);
    forall k | 0 <= k < |order| && order[k] != cfg.active
      ensures Parked(g, cfg.active) !in FilesOf(cfg, order[k])
      ensures Parked(g, cfg.active) !in ParkedSet(FilesOf(cfg, order[k]), order[k])
    {
      assert order[k] in order;
    }
    DeactivatingFrame(cfg, order, force, false, failing, Run(paths, 0, None), Parked(g, cfg.active));
    ActivateFailsWithoutParkedCopy(cfg, cfg.active, force, false, r.paths, failing, g);
  }

  // Parking and activating one profile undo each other

  /** Parking files that are all live and not parked succeeds exactly when none
      of them is faulty, and then swaps every live path for its parked path. */
  lemma {:induction false} ParkingFromLive(files: seq<Path>, n: string, force: bool, failing: set<Path>, s: Run)
    requires s.failure.None?
    requires NoDuplicates(files) && LiveSet(files) !! ParkedSet(files, n)
    requires LiveSet(files) <= s.paths && ParkedSet(files, n) !! s.paths
    ensures var r := Parking(files, n, force, false, failing, s);
      && (r.failure.None? <==> NoneFailing(files, n, failing))
      && (r.failure.None? ==> r == Run(s.paths - LiveSet(files) + ParkedSet(files, n), s.warnings, None))
  {
    if files != [] {
      var f, rest := files[0], files[1..];
      var t := ParkStep(f, n, force, false, failing, s);
      assert f in s.paths && Parked(f, n) !in s.paths by {
        assert f in LiveSet(files) && Parked(f, n) in ParkedSet(files, n);
      }
      ParkStepCases(f, n, force, false, failing, s);
      if t.failure.None? {
        assert t == s.(paths := s.paths - {f} + {Parked(f, n)});
        assert LiveSet(rest) <= t.paths && ParkedSet(rest, n) !! t.paths by {
          RestStaysSwappable(files, n, s.paths);
        }
        assert NoDuplicates(rest) && LiveSet(rest) !! ParkedSet(rest, n) by {
          assert LiveSet(rest) <= LiveSet(files) && ParkedSet(rest, n) <= ParkedSet(files, n);
        }
        ParkingFromLive(rest, n, force, failing, t);
        SwapStep(files, n, s.paths, true);
      }
    }
  }

  /** Activating files that are all parked and not live succeeds exactly when none
      of them is faulty, and then swaps every parked path for its live path. */
  lemma {:induction false} ActivatingFromParked(files: seq<Path>, n: string, force: bool, failing: set<Path>, s: Run)
    requires s.failure.None?
    requires NoDuplicates(files) && LiveSet(files) !! ParkedSet(files, n)
    requires ParkedSet(files, n) <= s.paths && LiveSet(files) !! s.paths
    ensures var r := Activating(files, n, force, false, failing, s);
      && (r.failure.None? <==> NoneFailing(files, n, failing))
      && (r.failure.None? ==> r == Run(s.paths - ParkedSet(files, n) + LiveSet(files), s.warnings, None))
  {
    if files != [] {
      var f, rest := files[0], files[1..];
      var t := ActivateStep(f, n, force, false, failing, s);
      assert f !in s.paths && Parked(f, n) in s.paths by {
        assert f in LiveSet(files) && Parked(f, n) in ParkedSet(files, n);
      }
      ActivateStepCases(f, n, force, false, failing, s);
      if t.failure.None? {
        assert t == s.(paths := s.paths - {Parked(f, n)} + {f});
        assert ParkedSet(rest, n) <= t.paths && LiveSet(rest) !! t.paths by {
          RestStaysSwappable(files, n, s.paths);
        }
        assert NoDuplicates(rest) && LiveSet(rest) !! ParkedSet(rest, n) by {
          assert LiveSet(rest) <= LiveSet(files) && ParkedSet(rest, n) <= ParkedSet(files, n);
        }
        ActivatingFromParked(rest, n, force, failing, t);
        SwapStep(files, n, s.paths, false);
      }
    }
  }

  /** After the first file of `files` is swapped, the rest are still all on one side. */
  lemma RestStaysSwappable(files: seq<Path>, n: string, paths: set<Path>)
    requires files != [] && NoDuplicates(files) && LiveSet(files) !! ParkedSet(files, n)
    ensures var f, rest := files[0], files[1..];
      && (LiveSet(files) <= paths && ParkedSet(files, n) !! paths ==>
            LiveSet(rest) <= paths - {f} + {Parked(f, n)} && ParkedSet(rest, n) !! paths - {f} + {Parked(f, n)})
      && (ParkedSet(files, n) <= paths && LiveSet(files) !! paths ==>
            ParkedSet(rest, n) <= paths - {Parked(f, n)} + {f} && LiveSet(rest) !! paths - {Parked(f, n)} + {f})
  {
    var f, rest := files[0], files[1..];
    forall g | g in rest ensures g != f && g != Parked(f, n) && Parked(g, n) != f {
      assert g in LiveSet(files) && f in LiveSet(files);
      ParkedSetMembers(files, n, g);
      ParkedSetMembers(files, n, f);
    }
    forall x | x in ParkedSet(rest, n) ensures x != Parked(f, n) && x in ParkedSet(files, n) {
      ParkedSetMembers(rest, n, f);
    }
  }

  /** The set equation behind one swap: swapping the first file, then the rest,
      is swapping the whole list. `toParked` gives the direction. */
  lemma SwapStep(files: seq<Path>, n: string, paths: set<Path>, toParked: bool)
    requires files != [] && LiveSet(files) !! ParkedSet(files, n)
    ensures var f, rest := files[0], files[1..];
      && (toParked ==>
            paths - {f} + {Parked(f, n)} - LiveSet(rest) + ParkedSet(rest, n)
            == paths - LiveSet(files) + ParkedSet(files, n))
      && (!toParked ==>
            paths - {Parked(f, n)} + {f} - ParkedSet(rest, n) + LiveSet(rest)
            == paths - ParkedSet(files, n) + LiveSet(files))
  {
    var f, rest := files[0], files[1..];
    assert LiveSet(files) == {f} + LiveSet(rest);
    assert ParkedSet(files, n) == {Parked(f, n)} + ParkedSet(rest, n);
  }

  /** Parking a profile's live files and then activating them again restores
      the filesystem. */
  lemma ParkThenActivate(files: seq<Path>, n: string, failing: set<Path>, paths: set<Path>)
    requires NoDuplicates(files) && LiveSet(files) !! ParkedSet(files, n)
    requires LiveSet(files) <= paths && ParkedSet(files, n) !! paths
    requires NoneFailing(files, n, failing)
    ensures var parked := Parking(files, n, false, false, failing, Run(paths, 0, None));
      && parked.failure.None?
      && Activating(files, n, false, false, failing, parked) == Run(paths, 0, None)
  {
    var s := Run(paths, 0, None);
    ParkingFromLive(files, n, false, failing, s);
    var parked := Parking(files, n, false, false, failing, s);
    ActivatingFromParked(files, n, false, failing, parked);
    assert parked.paths - ParkedSet(files, n) + LiveSet(files) == paths;
  }

  /** Activating a profile's parked files and then parking them again restores
      the filesystem. */
  lemma ActivateThenPark(files: seq<Path>, n: string, failing: set<Path>, paths: set<Path>)
    requires NoDuplicates(files) && LiveSet(files) !! ParkedSet(files, n)
    requires ParkedSet(files, n) <= paths && LiveSet(files) !! paths
    requires NoneFailing(files, n, failing)
    ensures var live := Activating(files, n, false, false, failing, Run(paths, 0, None));
      && live.failure.None?
      && Parking(files, n, false, false, failing, live) == Run(paths, 0, None)
  {
    var s := Run(paths, 0, None);
    ActivatingFromParked(files, n, false, failing, s);
    var live := Activating(files, n, false, false, failing, s);
    ParkingFromLive(files, n, false, failing, live);
    assert live.paths - LiveSet(files) + ParkedSet(files, n) == paths;
  }
}

=== FILE: profiles.dfy ===
/**
 * The file-swap engine of shrimp (profiles.go). A managed file `f` of profile
 * `n` is live when it exists at `f` and parked when it exists at
 * `f + "." + n + ".disabled"`. ActivateProfile brings the active profile's
 * files back to their live paths; DeactivateAll parks the files of every other
 * profile.
 *
 * Each operation is a method over a filesystem object that it changes in place
 * and is proved equal to a specification function over `Run` states: the set of
 * existing paths, the number of warnings so far and the error that stopped the
 * run, if any. The loops of the source return at the first filesystem error and
 * undo nothing; the specification functions stop the same way.
 */
module ShrimpProfiles {
  import opened Wrappers
  import opened FileSystem
  import opened ShrimpConfig

  /** Where file `f` of profile `profile` is kept while the profile is inactive. */
  function Parked(f: Path, profile: string): (d: Path)
    ensures |d| == |f| + |profile| + 10
    ensures d[..|f|] == f && d[|f|] == '.'
    ensures d[|f| + 1..|f| + 1 + |profile|] == profile
    ensures d[|f| + 1 + |profile|..] == ".disabled"
  {
    f + "." + profile + ".disabled"
  }

  datatype SwapError =
    | UnknownProfile(name: string)
    | MissingParked(path: Path)
    | RemoveFailed(path: Path)
    | RenameFailed(src: Path, dst: Path)
    | WarningsEmitted(count: nat)

  /** The state of a run: existing paths, warnings counted, and the error that
      ended it (None while it goes on). */
  datatype Run = Run(paths: set<Path>, warnings: nat, failure: Option<SwapError>)

  /** The files of a profile as `c.Profiles[n].Files` reads them. */
  function FilesOf(cfg: Config, n: string): seq<Path> {
    ProfileNamed(cfg, n).files
  }

  /** The common ending of both operations: warnings turn into an error, except in a dry run. */
  function Finish(r: Run, dry: bool): (f: Run)
    ensures f.paths == r.paths && f.warnings == r.warnings
    ensures f.failure.None? <==> r.failure.None? && (dry || r.warnings == 0)
    ensures r.failure.Some? ==> f == r
    ensures r.failure.None? && !dry && r.warnings != 0 ==> f.failure == Some(WarningsEmitted(r.warnings))
  {
    if r.failure.None? && !dry && r.warnings != 0 then r.(failure := Some(WarningsEmitted(r.warnings))) else r
  }

  // ActivateProfile

  /** One iteration of ActivateProfile's loop, for file `f` of profile `n`. */
  function ActivateStep(f: Path, n: string, force: bool, dry: bool, failing: set<Path>, s: Run): (t: Run)
    requires s.failure.None?
    ensures s.warnings <= t.warnings <= s.warnings + 1
    ensures t.failure.Some? ==> t.warnings == s.warnings
    ensures t.failure.None? ==> Parked(f, n) in s.paths
  {
    var d := Parked(f, n);
    if d !in s.paths then s.(failure := Some(MissingParked(d)))
    else if f in s.paths && !force then s.(warnings := s.warnings + 1)
    else if dry then s
    else if f in s.paths && f in failing then s.(failure := Some(RemoveFailed(f)))
    else
      var cleared := if f in s.paths then s.paths - {f} else s.paths;
      if RenameSucceeds(cleared, failing, d, f) then s.(paths := Renamed(cleared, d, f))
      else s.(paths := cleared, failure := Some(RenameFailed(d, f)))
  }

  /** The decisions of one ActivateProfile iteration. */
  lemma ActivateStepCases(f: Path, n: string, force: bool, dry: bool, failing: set<Path>, s: Run)
    requires s.failure.None?
    ensures var t := ActivateStep(f, n, force, dry, failing, s);
      && (Parked(f, n) !in s.paths ==> t == s.(failure := Some(MissingParked(Parked(f, n)))))
      && (Parked(f, n) in s.paths && f in s.paths && !force ==> t == s.(warnings := s.warnings + 1))
      && (dry ==> t.paths == s.paths)
      && (t.failure.None? && t.warnings == s.warnings && !dry ==>
        t.paths == s.paths - {Parked(f, n)} + {f})
      && (t.failure.None? ==> t.warnings == s.warnings || t.paths == s.paths)
      && (t.failure.Some? ==> t.warnings == s.warnings && t.paths <= s.paths)
      && (s.warnings <= t.warnings <= s.warnings + 1)
      && (forall q :: q != f && q != Parked(f, n) ==> (q in t.paths <==> q in s.paths))
  {
  }

  /** When one ActivateProfile iteration fails, warns, or overwrites a live
      path, and what a failure leaves behind: a failed rename after a forced
      removal leaves the live file deleted, with no rollback. The parked path
      is never the file itself, so clearing the file before the rename cannot
      remove the parked copy. */
  lemma ActivateStepOutcome(f: Path, n: string, force: bool, dry: bool, failing: set<Path>, s: Run)
    requires s.failure.None?
    ensures var t := ActivateStep(f, n, force, dry, failing, s);
      && (t.failure.Some? <==>
          Parked(f, n) !in s.paths ||
          (!dry && !(f in s.paths && !force) && (f in failing || Parked(f, n) in failing)))
      && (t.warnings == s.warnings + 1 <==> Parked(f, n) in s.paths && f in s.paths && !force)
      && (Parked(f, n) in s.paths && f in s.paths && force && !dry &&
          f !in failing && Parked(f, n) !in failing ==>
          t.failure.None? && t.warnings == s.warnings && t.paths == s.paths - {Parked(f, n)} + {f})
      && (t.failure.Some? ==> t.paths == if t.failure.value.RenameFailed? then s.paths - {f} else s.paths)
  {
    var d := Parked(f, n);
    assert d != f by { assert |d| != |f|; }
  }

  /** ActivateProfile's loop over `files`, from state `s`; a run that has
      failed stays as it is. */
  function Activating(files: seq<Path>, n: string, force: bool, dry: bool, failing: set<Path>, s: Run): (r: Run)
    ensures r.warnings >= s.warnings
    ensures s.failure.Some? ==> r == s
    ensures dry ==> r.paths == s.paths
    ensures dry && s.failure.None? && r.failure.Some? ==> r.failure.value.MissingParked?
  {
    if files == [] || s.failure.Some? then s
    else Activating(files[1..], n, force, dry, failing, ActivateStep(files[0], n, force, dry, failing, s))
  }

  /** The outcome of `ActivateProfile(name, force, dry)` on a filesystem holding
      `paths`. The name is only checked; the files moved are those of the
      active profile, parked under the active profile's name. */
  function ActivateResult(cfg: Config, name: string, force: bool, dry: bool, paths: set<Path>, failing: set<Path>): (r: Run)
    ensures name !in cfg.profiles ==> r == Run(paths, 0, Some(UnknownProfile(name)))
    ensures dry ==> r.paths == paths
    ensures dry && r.failure.Some? ==> r.failure.value.UnknownProfile? || r.failure.value.MissingParked?
    ensures !dry && r.failure.None? ==> r.warnings == 0
  {
    if name !in cfg.profiles then Run(paths, 0, Some(UnknownProfile(name)))
    else
      Finish(Activating(FilesOf(cfg, cfg.active), cfg.active, force, dry, failing, Run(paths, 0, None)), dry)
  }

  /** ActivateProfile: to be called once `cfg.active` names the profile to activate. */
  method ActivateProfile(cfg: Config, name: string, force: bool, dry: bool, fs: Fs) returns (err: Option<SwapError>)
    modifies fs
    ensures var r := ActivateResult(cfg, name, force, dry, old(fs.paths), fs.failing);
      fs.paths == r.paths && err == r.failure
  {
    var warnings := 0;
    if name !in cfg.profiles {
      return Some(UnknownProfile(name));
    }
    var files := FilesOf(cfg, cfg.active);
    ghost var start := Run(fs.paths, 0, None);
    var i := 0;
    while i < |files|
      invariant i <= |files|
      invariant Activating(files[i..], cfg.active, force, dry, fs.failing, Run(fs.paths, warnings, None))
             == Activating(files, cfg.active, force, dry, fs.failing, start)
    {
      assert files[i..][0] == files[i] && files[i..][1..] == files[i + 1..];
      var e;
      warnings, e := ActivateFile(files[i], cfg.active, force, dry, fs, warnings);
      if e.Some? {
        return e;
      }
      i := i + 1;
    }
    if !dry && warnings != 0 {
      return Some(WarningsEmitted(warnings));
    }
    return None;
  }

  /** The body of ActivateProfile's loop for file `f` of profile `n`: an error
      ends the loop, a warning moves on to the next file. */
  method ActivateFile(f: Path, n: string, force: bool, dry: bool, fs: Fs, warnings: nat)
    returns (count: nat, err: Option<SwapError>)
    modifies fs
    ensures var t := ActivateStep(f, n, force, dry, fs.failing, Run(old(fs.paths), warnings, None));
      fs.paths == t.paths && count == t.warnings && err == t.failure
  {
    count := warnings;
    var disabled := Parked(f, n);
    if !fs.Exists(disabled) {
      return count, Some(MissingParked(disabled));
    }
    if fs.Exists(f) {
      if !force {
        return count + 1, None;
      }
      if !dry {
        var ok := fs.RemoveAll(f);
        if !ok {
          return count, Some(RemoveFailed(f));
        }
      }
    }
    if !dry {
      var ok := fs.Rename(disabled, f);
      if !ok {
        return count, Some(RenameFailed(disabled, f));
      }
    }
    return count, None;
  }

  // DeactivateAll

  /** One iteration of DeactivateAll's inner loop, for file `f` of the inactive profile `n`. */
  function ParkStep(f: Path, n: string, force: bool, dry: bool, failing: set<Path>, s: Run): (t: Run)
    requires s.failure.None?
    ensures s.warnings <= t.warnings <= s.warnings + 1
    ensures t.failure.Some? ==> t.warnings == s.warnings && t.paths == s.paths && f in s.paths
    ensures f !in s.paths ==> t.paths == s.paths
  {
    var d := Parked(f, n);
    if f !in s.paths then
      if d !in s.paths then s.(warnings := s.warnings + 1) else s
    else if d in s.paths && !force then s.(warnings := s.warnings + 1)
    else if dry then s
    else if RenameSucceeds(s.paths, failing, f, d) then s.(paths := Renamed(s.paths, f, d))
    else s.(failure := Some(RenameFailed(f, d)))
  }

  /** The decisions of one DeactivateAll iteration. */
  lemma ParkStepCases(f: Path, n: string, force: bool, dry: bool, failing: set<Path>, s: Run)
    requires s.failure.None?
    ensures var t := ParkStep(f, n, force, dry, failing, s);
      && (f !in s.paths ==> t.paths == s.paths && t.failure.None?)
      && (f !in s.paths && Parked(f, n) !in s.paths ==> t.warnings == s.warnings + 1)
      && (f in s.paths && Parked(f, n) in s.paths && !force ==> t == s.(warnings := s.warnings + 1))
      && (dry ==> t.paths == s.paths && t.failure.None?)
      && (t.paths == s.paths || t.paths == Renamed(s.paths, f, Parked(f, n)))
      && (t.warnings == s.warnings || t.warnings == s.warnings + 1)
      && (t.warnings == s.warnings + 1 <==>
        (f !in s.paths && Parked(f, n) !in s.paths) || (f in s.paths && Parked(f, n) in s.paths && !force))
      && (t.failure.Some? <==> !dry && f in s.paths && t.warnings == s.warnings && !RenameSucceeds(s.paths, failing, f, Parked(f, n)))
      && (t.failure.Some? ==> t.paths == s.paths)
      && (t.failure.None? && t.warnings == s.warnings && !dry ==>
        t.paths == s.paths - {f} + {Parked(f, n)})
  {
  }

  /** DeactivateAll's inner loop over the files of profile `n`. */
  function Parking(files: seq<Path>, n: string, force: bool, dry: bool, failing: set<Path>, s: Run): (r: Run)
    ensures r.warnings >= s.warnings
    ensures s.failure.Some? ==> r == s
    ensures dry ==> r.paths == s.paths && r.failure == s.failure
  {
    if files == [] || s.failure.Some? then s
    else Parking(files[1..], n, force, dry, failing, ParkStep(files[0], n, force, dry, failing, s))
  }

  /** DeactivateAll's outer loop over profile names in `order`; the active
      profile is skipped. */
  function DeactivatingProfiles(cfg: Config, order: seq<string>, force: bool, dry: bool, failing: set<Path>, s: Run): (r: Run)
    ensures r.warnings >= s.warnings
    ensures s.failure.Some? ==> r == s
    ensures dry ==> r.paths == s.paths && r.failure == s.failure
  {
    if order == [] || s.failure.Some? then s
    else
      var t := if order[0] == cfg.active then s
               else Parking(FilesOf(cfg, order[0]), order[0], force, dry, failing, s);
      DeactivatingProfiles(cfg, order[1..], force, dry, failing, t)
  }

  /** `order` is one of the orders in which `range` may visit the profile map:
      every name once. */
  predicate IsIterationOrder(order: seq<string>, cfg: Config) {
    && (forall i, j :: 0 <= i < j < |order| ==> order[i] != order[j])
    && (forall n :: n in order ==> n in cfg.profiles)
    && (forall n :: n in cfg.profiles ==> n in order)
  }

  /** The outcome of `DeactivateAll(force, dry)` when the profile map is visited in `order`. */
  function DeactivateResult(cfg: Config, order: seq<string>, force: bool, dry: bool, paths: set<Path>, failing: set<Path>): (r: Run)
    ensures dry ==> r.paths == paths && r.failure.None?
    ensures !dry && r.failure.None? ==> r.warnings == 0
  {
    Finish(DeactivatingProfiles(cfg, order, force, dry, failing, Run(paths, 0, None)), dry)
  }

  /** The body of DeactivateAll's inner loop for file `f` of profile `n`. */
  method ParkFile(f: Path, n: string, force: bool, dry: bool, fs: Fs, warnings: nat)
    returns (count: nat, err: Option<SwapError>)
    modifies fs
    ensures var t := ParkStep(f, n, force, dry, fs.failing, Run(old(fs.paths), warnings, None));
      fs.paths == t.paths && count == t.warnings && err == t.failure
  {
    count := warnings;
    var disabled := Parked(f, n);
    if !fs.Exists(f) {
      if !fs.Exists(disabled) {
        count := count + 1;
      }
      return count, None;
    }
    if fs.Exists(disabled) && !force {
      return count + 1, None;
    }
    if !dry {
      var ok := fs.Rename(f, disabled);
      if !ok {
        return count, Some(RenameFailed(f, disabled));
      }
    }
    return count, None;
  }

  /** The inner loop of DeactivateAll: parks the files of one inactive profile `n`,
      counting warnings on from `warnings`. */
  method ParkProfileFiles(files: seq<Path>, n: string, force: bool, dry: bool, fs: Fs, warnings: nat)
    returns (count: nat, err: Option<SwapError>)
    modifies fs
    ensures var r := Parking(files, n, force, dry, fs.failing, Run(old(fs.paths), warnings, None));
      fs.paths == r.paths && count == r.warnings && err == r.failure
  {
    count := warnings;
    ghost var before := Run(fs.paths, warnings, None);
    var j := 0;
    while j < |files|
      invariant j <= |files|
      invariant Parking(files[j..], n, force, dry, fs.failing, Run(fs.paths, count, None))
             == Parking(files, n, force, dry, fs.failing, before)
    {
      assert files[j..][0] == files[j] && files[j..][1..] == files[j + 1..];
      var e;
      count, e := ParkFile(files[j], n, force, dry, fs, count);
      if e.Some? {
        return count, e;
      }
      j := j + 1;
    }
    return count, None;
  }

  /** DeactivateAll: parks the files of every inactive profile. Go leaves the
      order of the profile map unspecified; `order` is that order. */
  method DeactivateAll(cfg: Config, order: seq<string>, force: bool, dry: bool, fs: Fs) returns (err: Option<SwapError>)
    requires IsIterationOrder(order, cfg)
    modifies fs
    ensures var r := DeactivateResult(cfg, order, force, dry, old(fs.paths), fs.failing);
      fs.paths == r.paths && err == r.failure
  {
    var warnings := 0;
    ghost var start := Run(fs.paths, 0, None);
    var k := 0;
    while k < |order|
      invariant k <= |order|
      invariant DeactivatingProfiles(cfg, order[k..], force, dry, fs.failing, Run(fs.paths, warnings, None))
             == DeactivatingProfiles(cfg, order, force, dry, fs.failing, start)
    {
      var n := order[k];
      assert order[k..][1..] == order[k + 1..];
      if n == cfg.active {
        k := k + 1;
        continue;
      }
      assert n in order;
      warnings, err := ParkProfileFiles(cfg.profiles[n].files, n, force, dry, fs, warnings);
      if err.Some? {
        return err;
      }
      k := k + 1;
    }
    if !dry && warnings != 0 {
      return Some(WarningsEmitted(warnings));
    }
    return None;
  }
}

=== FILE: wrappers.dfy ===
/** Failure-carrying values used in place of Go's `error` returns. */
module Wrappers {

  datatype Option<+T> = None | Some(value: T)

  datatype Result<+T, +E> = Ok(value: T) | Err(error: E)
}
